=== FILE: README.md ===
# A Dafny model of the laravel-mongodb query grammar

This project models the part of the laravel-mongodb core that turns a Laravel
query description into MongoDB operations, and proves properties of that model:

- `MongoGrammar`: how where clauses, columns, orders, aggregates, projections
  and computed fields become an aggregation pipeline. It also covers how insert,
  update, delete and truncate become collection calls.
- The `Builder` extensions: `find`, `delete`, `truncate`, `addField`, `project`
  and `whereBetween`.
- `MongoConnector`: how a connection string and the client options are built
  from a configuration array.

A PHP array is modelled as an ordered document (`Documents.Doc`). Assigning a
key that is already present overwrites it in place; assigning a new key appends
it. The grammar returns closures that the connection later runs on a database.
Here it returns the data those closures close over instead (`Grammar.Unit`: a
collection name and a `Statement`). A "not yet implemented" exception is an
`Unsupported` error naming the construct.

Modules, in dependency order:

- `Wrappers`: `Option` and `Result`.
- `Strings`: PHP's string helpers — `ltrim`, `strtolower`, `explode`/`implode`,
  `stripos`, integer formatting and the `(int)` cast of a string.
- `Documents`: values, ordered documents, and PHP's `empty()` and casts.
- `Queries`: the query description the framework's builder fills in.
- `Like`: `preg_quote`, and the rewrite of a `like` pattern into a regular
  expression.
- `Grammar`: MongoGrammar.
- `Matching`: a small reference semantics for MongoDB filters, used to state
  what each compiled where clause selects.
- `Builder`: the builder extensions.
- `Connector`: MongoConnector.

## Model

| member | source | states |
|---|---|---|
| Grammar.GetOperators | src/Query/Grammars/MongoGrammar.php:668-671 | the corrected half of the finding at line 51: the advertised operators are the corrected list lower-cased, position by position, and every name in that list is a MongoDB query operator |
| Grammar.OperatorsAreMongoOperators | src/Query/Grammars/MongoGrammar.php:18-54 | every entry of the corrected operator list names a MongoDB query operator |
| Grammar.GetOperatorsAsWritten | src/Query/Grammars/MongoGrammar.php:668-671 | the list as written, lower-cased, contains an entry that is not a MongoDB operator |
| Grammar.MisspeltOperatorAsWritten | src/Query/Grammars/MongoGrammar.php:51 | the written list lacks `bitsAnyClear`; it differs from the intended list only at that entry |
| Grammar.WhereBasic | src/Query/Grammars/MongoGrammar.php:268-313 | a basic clause always yields exactly one condition, keyed by the clause's column |
| Grammar.SigilsIgnored | src/Query/Grammars/MongoGrammar.php:270 | leading `$` signs on the operator never change the compiled condition |
| Grammar.TrimDollars | src/Query/Grammars/MongoGrammar.php:270 | stripping `$` signs from an operator that has extra `$` signs in front gives the same result as stripping the original operator |
| Grammar.EqualityIsBare | src/Query/Grammars/MongoGrammar.php:308-310 | `=` compiles to the value itself under the column, with no operator document |
| Grammar.InequalityConverted | src/Query/Grammars/MongoGrammar.php:59-60 | both `!=` and `<>` become `$ne` |
| Grammar.OrderingConverted | src/Query/Grammars/MongoGrammar.php:61-64 | `<`, `<=`, `>` and `>=` become `$lt`, `$lte`, `$gt` and `$gte` |
| Grammar.Converted | src/Query/Grammars/MongoGrammar.php:303-312 | every SQL comparison operator becomes the MongoDB operator it is mapped to, wrapped as `{column: {$op: value}}` |
| Grammar.OtherOperatorsPassThrough | src/Query/Grammars/MongoGrammar.php:303-312 | an operator that is not `like`, not a regex operator, not a SQL comparison and not `=` is passed through as `$` followed by its name |
| Grammar.LikeIsAnchoredRegex | src/Query/Grammars/MongoGrammar.php:272-286 | `like` becomes an equality with the case-insensitive regular expression of the rewritten pattern, which starts with `^` exactly when the pattern does not start with `%` and ends with `$` exactly when it does not end with `%` |
| Grammar.LikeAgreesAsWritten | src/Query/Grammars/MongoGrammar.php:274 | on patterns without two adjacent `%` after quoting, the compiled `like` condition is the one the rewrite as written produces |
| Grammar.RegexOperand | src/Query/Grammars/MongoGrammar.php:290-293 | the value of a regex clause is always turned into a regular expression |
| Grammar.DelimitedOperand | src/Query/Grammars/MongoGrammar.php:290-293 | a delimited string `/pattern/flags` is split into that exact pattern and those exact flags |
| Grammar.RegexStringSplit | src/Query/Grammars/MongoGrammar.php:288-301 | `regex` gives the column an equality with the split regular expression; `not regex` gives `$not` of it |
| Grammar.DatePartCompared | src/Query/Grammars/MongoGrammar.php:396-437 | day, month and year compare an `$expr` extraction with the `(int)` cast of the value, so a numeric string and the integer give the same filter |
| Grammar.DateFormatCompared | src/Query/Grammars/MongoGrammar.php:410-436 | date and time compare `$dateToString` of the column, in the fixed formats, with the value unchanged |
| Grammar.DateOperatorIgnored | src/Query/Grammars/MongoGrammar.php:429-436 | a date clause compiles the same whatever its operator, always to an `$eq` comparison |
| Grammar.Translate | src/Query/Grammars/MongoGrammar.php:442-477 | translating a clause fails exactly for the kinds the grammar leaves unimplemented |
| Grammar.CompileWheres | src/Query/Grammars/MongoGrammar.php:237-255 | the filter exists exactly when every clause is supported; it is the ordered assignment of each clause's first key and value |
| Grammar.FailsAtFirstUnsupported | src/Query/Grammars/MongoGrammar.php:249-252 | compilation stops with the first unsupported clause, and the error names that clause's kind |
| Grammar.WheresKeepLastPerKey | src/Query/Grammars/MongoGrammar.php:249-252 | for each key, the filter holds the value of the last clause that produced that key |
| Grammar.NoWheresNoFilter | src/Query/Grammars/MongoGrammar.php:239-245 | no clauses give the empty filter |
| Grammar.RawKeepsFirstPairOnly | src/Query/Grammars/MongoGrammar.php:249-263 | a raw clause contributes only its first pair; an empty raw document contributes the pair (`""`, false) |
| Grammar.LaterClauseOverwrites | src/Query/Grammars/MongoGrammar.php:251 | two clauses on the same column are not combined: the later one alone is kept |
| Grammar.StarMeansNoColumn | src/Query/Grammars/MongoGrammar.php:142-144 | `*` among the aggregate columns acts as if no column were named, and adds no clause |
| Grammar.CountFiltersNonNull | src/Query/Grammars/MongoGrammar.php:146-153 | counting a named column sums 1 per document and filters out documents where that column is null |
| Grammar.OtherAggregatesReadFirstColumn | src/Query/Grammars/MongoGrammar.php:156 | any other aggregate applies `$function` to the first column's field path and adds no clause |
| Grammar.StarSelectsEverything | src/Query/Grammars/MongoGrammar.php:200-202 | `*` among the columns gives an empty projection |
| Grammar.PlainColumnsIncluded | src/Query/Grammars/MongoGrammar.php:204-215 | a column without an alias is included with 1 exactly when it was selected |
| Grammar.AliasedColumn | src/Query/Grammars/MongoGrammar.php:207-209 | `original AS alias`, in any letter case and with blanks allowed in either part, maps the lower-cased alias to the lower-cased original's field path, as long as the separator is the only ` as ` |
| Grammar.OrderDirections | src/Query/Grammars/MongoGrammar.php:514-531 | a direction string is 1 exactly when it is `asc` in any case, else -1; other directions are kept; the column `natural` becomes `$natural` |
| Grammar.CountCast | src/Query/Grammars/MongoGrammar.php:544-555 | a limit or offset given as an integer or as its text compiles to that integer |
| Grammar.CompilePipeline | src/Query/Grammars/MongoGrammar.php:100-135 | at most eight stages, in the fixed stage order, each a one-key document; the pipeline is empty exactly when every component is empty |
| Grammar.PipelineStagePresence | src/Query/Grammars/MongoGrammar.php:104-132 | each of the eight candidate stages, both `$project` stages included, is in the pipeline exactly when its component is non-empty (non-zero for `$skip` and `$limit`) |
| Grammar.StageNamesInOrder | src/Query/Grammars/MongoGrammar.php:100-135 | the candidate stages are named in the order addFields, project, match, group, project, sort, skip, limit |
| Grammar.PickIsSubsequence | src/Query/Grammars/MongoGrammar.php:100-135 | keeping only the present stages preserves their relative order |
| Grammar.CompileSelect | src/Query/Grammars/MongoGrammar.php:77-94 | a select fails exactly when the query has joins, groups, havings, unions or a lock, or an unsupported clause; otherwise it aggregates the query's collection with the pipeline of its compiled components (at most eight stages) and the select options |
| Grammar.SelectMatchStage | src/Query/Grammars/MongoGrammar.php:110-112 | the compiled filter is in the select's pipeline as a `$match` stage exactly when it is non-empty |
| Grammar.SelectGroupStage | src/Query/Grammars/MongoGrammar.php:113-120 | an aggregate puts a `$group` stage with a null `_id` and the compiled accumulator in the select's pipeline |
| Grammar.SelectOptionsDefault | src/Query/Grammars/MongoGrammar.php:81-87 | without options of its own a select reads arrays with the `array` type map; otherwise its options are passed as given |
| Grammar.CountSelectMatchesNonNull | src/Query/Grammars/MongoGrammar.php:146-153 | a count over a column compiles, and its pipeline holds a `$match` requiring that column to be non-null and a `$group` summing 1 |
| Grammar.SelectFailsInComponentOrder | src/Query/Grammars/MongoGrammar.php:77-79 | the error names the first failing component in compilation order |
| Grammar.SelectFailsAtFirstUnsupportedClause | src/Query/Grammars/MongoGrammar.php:237-255 | without joins, a select fails on the first unsupported where clause |
| Grammar.CompileExists | src/Query/Grammars/MongoGrammar.php:576-579 | exists queries are always unsupported |
| Grammar.CompileRandom | src/Query/Grammars/MongoGrammar.php:536-539 | random ordering is always unsupported |
| Grammar.CompileInsert | src/Query/Grammars/MongoGrammar.php:586-593 | insert is an insertMany of the given documents into the query's collection |
| Grammar.CompileInsertGetId | src/Query/Grammars/MongoGrammar.php:601-608 | insertGetId is an insertOne of the given document into the query's collection |
| Grammar.UpdateDocument | src/Query/Grammars/MongoGrammar.php:619-622 | the update document always starts with an update operator: either the values themselves or `$set` wrapped around them |
| Grammar.PlainValuesAreSet | src/Query/Grammars/MongoGrammar.php:620-622 | values whose first key is not an operator are wrapped in `$set` |
| Grammar.OperatorValuesKept | src/Query/Grammars/MongoGrammar.php:620 | values whose first key is an operator are used unchanged |
| Grammar.CompileUpdate | src/Query/Grammars/MongoGrammar.php:615-629 | update succeeds exactly when every clause is supported, and is an updateMany with the compiled filter |
| Grammar.CompileDelete | src/Query/Grammars/MongoGrammar.php:635-644 | delete succeeds exactly when every clause is supported, and is a deleteMany with the compiled filter |
| Grammar.CompileTruncate | src/Query/Grammars/MongoGrammar.php:650-655 | truncate drops the query's collection |
| Grammar.TruncateIgnoresQueryState | src/Query/Grammars/MongoGrammar.php:650-655 | nothing except the collection name affects truncation |
| Like.WildcardsLeaveNoBarePercent | src/Query/Grammars/MongoGrammar.php:274 | after the corrected rewrite, every `%` left in the pattern is escaped |
| Like.DoublePercentAsWritten | src/Query/Grammars/MongoGrammar.php:274 | as written, `%%` becomes `.*%`, which demands a literal percent; the corrected rewrite gives `.*.*` |
| Like.AsWrittenAgrees | src/Query/Grammars/MongoGrammar.php:274 | on patterns without two adjacent `%`, the rewrite as written and the corrected rewrite agree |
| Like.AnchoredAtStart | src/Query/Grammars/MongoGrammar.php:277-279 | the regular expression is anchored with `^` exactly when the pattern does not start with `%` |
| Like.AnchoredAtEnd | src/Query/Grammars/MongoGrammar.php:280-282 | the regular expression ends in `$` exactly when the pattern does not end with `%` |
| Like.ExactLike | src/Query/Grammars/MongoGrammar.php:272-286 | a pattern without wildcards or special characters matches exactly that text |
| Like.PrefixLike | src/Query/Grammars/MongoGrammar.php:272-286 | `x%` is a prefix match `^x.*` |
| Like.ContainsLike | src/Query/Grammars/MongoGrammar.php:272-286 | `%x%` is a substring match `.*x.*` |
| Like.QuoteConcat | src/Query/Grammars/MongoGrammar.php:274 | quoting a text piece by piece is quoting it whole |
| Matching.BetweenSelectsRange | src/Query/Grammars/MongoGrammar.php:366-391 | on an integer field, between selects exactly the closed range and not-between exactly its complement |
| Matching.BetweenSkipsMissingField | src/Query/Grammars/MongoGrammar.php:366-391 | a document without the field is selected by neither between nor not-between |
| Matching.NullAndNotNullPartition | src/Query/Grammars/MongoGrammar.php:350-361 | null selects exactly the documents where the field is null or missing, and not-null exactly the others |
| Matching.InAndNotInPartition | src/Query/Grammars/MongoGrammar.php:318-329 | for a list without regular expressions, in selects a document exactly when its field is among the values, and not-in exactly when it is not; an empty list selects nothing or everything |
| Matching.EqualitySelectsValue | src/Query/Grammars/MongoGrammar.php:308-310 | `=` on a value that is neither a regular expression nor a document whose first key is an operator selects exactly the documents whose field equals the value |
| Matching.GreaterSelectsLarger | src/Query/Grammars/MongoGrammar.php:303-312 | `>` selects exactly the documents whose integer field is larger |
| Matching.OnePairMatches | src/Query/Grammars/MongoGrammar.php:250-251 | a clause's single pair selects the same documents as the clause's own translation |
| Matching.DistinctKeysConjoin | src/Query/Grammars/MongoGrammar.php:237-255 | when no two clauses share a key, the filter selects exactly the documents every clause selects |
| Matching.SameColumnNotConjoined | src/Query/Grammars/MongoGrammar.php:251 | two bounds on one column keep only the upper bound, so documents below the lower bound are selected too |
| Builder.Find | src/Query/Builder.php:63-66 | find adds exactly one clause `_id = id` at the end and changes nothing else |
| Builder.FindPinsId | src/Query/Builder.php:63-66 | after find, the compiled filter's `_id` is the id, whatever earlier clauses said and whatever the id is, an array included |
| Builder.DeleteQuery | src/Query/Builder.php:71-81 | delete with a null id leaves the query as it is; with any other id it adds the same clause as find |
| Builder.Delete | src/Query/Builder.php:71-81 | delete succeeds exactly when the query's clauses are supported, and is a deleteMany on the query's collection whose filter is the compilation of the clauses after the optional `_id` clause |
| Builder.DeleteNullMatchesAll | src/Query/Builder.php:71-81 | delete(null) on a fresh query deletes with the empty filter |
| Builder.DeleteById | src/Query/Builder.php:76-78 | delete(id) with any non-null id, an array included, deletes with a filter whose `_id` is the id |
| Builder.Truncate | src/Query/Builder.php:86-89 | truncate drops the query's collection |
| Builder.TruncateIgnoresState | src/Query/Builder.php:86-89 | two queries on the same collection truncate identically |
| Builder.AddField | src/Query/Builder.php:96-101 | addField appends one computed field and changes nothing else |
| Builder.AddFieldCompiled | src/Query/Builder.php:96-101 | the field added last appears in the compiled `$addFields` with its expression |
| Builder.Project | src/Query/Builder.php:107-112 | project appends one projection and changes nothing else |
| Builder.ProjectCompiled | src/Query/Builder.php:107-112 | the projection added last appears in the compiled projection |
| Builder.WhereBetween | src/Query/Builder.php:128-135 | whereBetween appends one between clause and changes nothing else |
| Builder.WhereBetweenCompiled | src/Query/Builder.php:128-135 | the range added last is the column's condition `$gte` first value, `$lte` second value |
| Builder.WhereNotBetweenCompiled | src/Query/Builder.php:128-135 | the negated range added last is the filter's `$or` of the strict bounds outside the range |
| Connector.WithPort | src/Connectors/MongoConnector.php:55-60 | a host already naming a port, or an empty port setting, is left as it is; otherwise the port is appended after a `:` |
| Connector.WithPortIdempotent | src/Connectors/MongoConnector.php:55-60 | adding the port twice is the same as adding it once |
| Connector.PortAppended | src/Connectors/MongoConnector.php:57-58 | a host without `:` gets exactly `:` followed by the port |
| Connector.GetDsn | src/Connectors/MongoConnector.php:45-66 | a non-empty `dsn` is used verbatim; otherwise the string starts with `mongodb://` |
| Connector.DsnOverridesEverything | src/Connectors/MongoConnector.php:48-50 | with a non-empty `dsn`, no other setting affects the result |
| Connector.HostsRecoverable | src/Connectors/MongoConnector.php:53-65 | without an auth database, splitting the string after the scheme on `,` gives back the hosts in order |
| Connector.ScalarHost | src/Connectors/MongoConnector.php:53-65 | a single host string gives `mongodb://host[:port][/db]` |
| Connector.AuthDatabaseSuffix | src/Connectors/MongoConnector.php:62-65 | the string is exactly the scheme, the hosts joined by `,`, and `/database` exactly when the options name a non-empty database |
| Connector.HostsRecoverableWithDatabase | src/Connectors/MongoConnector.php:65 | with an auth database, splitting the part between the scheme and `/database` on `,` gives back the hosts in order |
| Connector.MergeCredential | src/Connectors/MongoConnector.php:28-34 | a credential is copied only into a gap in the options, and no other option changes |
| Connector.Connect | src/Connectors/MongoConnector.php:16-37 | the client gets the computed connection string and the driver options from the configuration |
| Connector.CredentialsNeverOverwritten | src/Connectors/MongoConnector.php:28-34 | a credential already in the options is never replaced |
| Connector.CredentialsFillGap | src/Connectors/MongoConnector.php:28-34 | a missing credential is filled from a non-empty configuration value |
| Connector.EmptyCredentialIgnored | src/Connectors/MongoConnector.php:28-34 | an empty configuration credential changes nothing |
| Connector.OtherOptionsKept | src/Connectors/MongoConnector.php:18-36 | options other than the credentials reach the client unchanged |
| Connector.OptionsDefaultEmpty | src/Connectors/MongoConnector.php:18-26 | without array options and credentials, the client gets empty options and empty driver options |
| Strings.SplitJoin | src/Connectors/MongoConnector.php:65 | joining hosts with `,` and splitting the result on `,` gives back the hosts when none contains a comma |
| Strings.ParseShowInt | src/Query/Grammars/MongoGrammar.php:544-547 | the `(int)` cast of an integer's decimal text is that integer |
| Documents.FromPairs | src/Query/Grammars/MongoGrammar.php:249-252 | assigning pairs in order gives, for each key, the value of its last pair, with no key repeated |
| Documents.FromPairsKeyOrder | src/Query/Grammars/MongoGrammar.php:249-252 | the keys come in the order of their first assignment, since a later assignment overwrites in place |
| Documents.FirstOccurrencesMembers | src/Query/Grammars/MongoGrammar.php:249-252 | the key order drops repeated keys and no others |
| Documents.AssignDistinct | src/Query/Grammars/MongoGrammar.php:249-252 | pairs with distinct keys are kept as they are, in order |
| Documents.LastValuePresent | src/Query/Grammars/MongoGrammar.php:249-252 | a key has a value exactly when some pair names it |

## Left out

- Running the statements: `Connection.php` executes the compiled closures and is not part of this model. The grammar's result is modelled as the collection name plus the call to make, not as a closure.
- The framework's base builder and grammar are not part of this model: `where()` argument normalisation, `first()`, `count()`, `compileComponents`. The query description is taken as already built. `Queries.Query` records one boolean per unsupported component. Where the failure position matters, `CompileSelect` assumes the framework's component order: joins, wheres, groups, havings, unions, lock.
- Grammar.WhereBasic: the `like` branch uses the corrected rewrite of line 274, so `%%` becomes `.*.*` where the code as written gives `.*%` (see Findings). Grammar.LikeAgreesAsWritten proves the two agree whenever the quoted pattern has no two adjacent `%`.
- Grammar.CompileSelect: an `options` component is honoured as in lines 85-87. Nothing in the component list at line 71 produces one, so in practice the default type map always applies.
- The `boolean` of a clause (`and`/`or`) is ignored, as in the code: `compileWheres` never reads it.
- Grammar.RegexOperand: a string value is split on its first character, as `explode` does. For an empty string, and for any non-string value (indexing it at line 291 gives null, so `explode` gets an empty separator), PHP raises an error and gives no result; the model instead reads the value through its text and splits that. PHP strings are bytes, so line 291 takes the first byte as the delimiter; the model takes the first character, which differs for a delimiter outside ASCII.
- Grammar.DateOperatorIgnored: `dateBasedWhere` (lines 396-437) never reads the clause's operator and always compares with `$eq`, so `whereYear(column, '>', 2000)` selects only the year 2000. The model keeps the operator in `Queries.Clause.DateBased` and proves it has no effect; the ordering comparisons the operator evidently asks for are not modelled.
- `push` and `pull` (Builder.php:145-164) are left out: `compilePush` and `compilePull` are not part of this model.
- `MongoProcessor`, `MongoServiceProvider` and the connection alias methods hold no query logic and are left out.
- The regular-expression engine and MongoDB's date extraction are not modelled. `Like` proves facts about the pattern text, and the date clauses about the `$expr` document.
- Matching is a reference semantics for the operators the grammar emits, not all of MongoDB's. It orders integers only and compares values structurally: MongoDB's cross-type numeric comparison and its element-wise matching of array fields are not modelled.
- Matching.EqualitySelectsValue: a regular-expression value is left out, because MongoDB matches `{column: /re/}` against string fields and the regular-expression engine is not modelled; the reference semantics would compare it structurally. A document whose first key is an operator but whose other keys are not is left out too: MongoDB rejects it, while the reference semantics compares it as a literal.
- Matching.InAndNotInPartition: lists holding a regular expression are left out, for the same reason: MongoDB's `$in` matches such an entry as a pattern.
- Integers are unbounded. PHP's 64-bit `int` overflow, and `(int)` casts of floats or exponent strings, are not modelled; the cast reads leading decimal digits.
- Connector.Connect: the `MongoDB\Client` constructor is represented by its three arguments; the network connection it opens is left out.

## Findings

| source | as written | input that shows it | evidently intended | confidence | as-written member | corrected member |
|---|---|---|---|---|---|---|
| src/Query/Grammars/MongoGrammar.php:274 | the pattern `(^\|[^\\])%` consumes the character before each `%`, so the second `%` of an adjacent pair is left as a literal | `where('name', 'like', '%%')` compiles to the regular expression `.*%`, which only matches names containing `%` | every unescaped `%` becomes `.*`, so `%%` matches anything, as in SQL | not executed | Like.DoublePercentAsWritten | Like.WildcardsLeaveNoBarePercent |
| src/Query/Grammars/MongoGrammar.php:51 | the operator list declares `bitaAnyClear` | `where('flags', 'bitsAnyClear', 5)`: the real operator is missing from `getOperators()`, so the framework does not treat it as an operator | the list names MongoDB's `bitsAnyClear` | not executed | Grammar.MisspeltOperatorAsWritten | Grammar.OperatorsAreMongoOperators |

=== FILE: builder.dfy ===
/**
 * The builder's own state updates: `find` and `delete` by id, `addField`,
 * `project`, `whereBetween`, and `truncate`. Each returns the updated query
 * description (or the compiled unit for `delete` and `truncate`).
 */
module Builder {
  import opened Wrappers
  import opened Documents
  import opened Queries
  import opened Grammar

  /** The clause `where('_id', '=', id)`. */
  function IdClause(id: Value): Clause {
    Basic("_id", "=", id)
  }

  /** find(id): one `_id = id` clause appended; running it (`first`) is the framework's. */
  function Find(q: Query, id: Value): (r: Query)
    ensures r.wheres == q.wheres + [IdClause(id)]
    ensures r.(wheres := q.wheres) == q
  {
    q.(wheres := q.wheres + [IdClause(id)])
  }

  /** The query delete(id) compiles: with a null id, the query as it is. */
  function DeleteQuery(q: Query, id: Value): (r: Query)
    ensures id == Null ==> r == q
    ensures id != Null ==> r == Find(q, id)
  {
    if id != Null then q.(wheres := q.wheres + [IdClause(id)]) else q
  }

  function Delete(q: Query, id: Value): (r: Result<Unit, Error>)
    ensures r.Ok? <==> AllSupported(q.wheres)
    ensures r.Ok? ==> r.value.collection == q.from
    ensures r.Ok? ==> r.value.statement == DeleteMany(CompileWheres(DeleteQuery(q, id).wheres).value)
  {
    var target := DeleteQuery(q, id);
    assert AllSupported(target.wheres) <==> AllSupported(q.wheres) by {
      assert forall i :: 0 <= i < |q.wheres| ==> target.wheres[i] == q.wheres[i];
    }
    CompileDelete(target)
  }

  function Truncate(q: Query): (r: Unit)
    ensures r == Unit(q.from, Drop)
  {
    CompileTruncate(q)
  }

  function AddField(q: Query, column: string, expression: Doc): (r: Query)
    ensures r.addFields == q.addFields + [Computed(column, expression)]
    ensures r.(addFields := q.addFields) == q
  {
    q.(addFields := q.addFields + [Computed(column, expression)])
  }

  function Project(q: Query, column: string, projection: Value): (r: Query)
    ensures r.projections == q.projections + [Projection(column, projection)]
    ensures r.(projections := q.projections) == q
  {
    q.(projections := q.projections + [Projection(column, projection)])
  }

  function WhereBetween(q: Query, column: string, values: seq<Value>, boolean: string, not: bool): (r: Query)
    ensures r.wheres == q.wheres + [Between(column, values, boolean, not)]
    ensures r.(wheres := q.wheres) == q
  {
    q.(wheres := q.wheres + [Between(column, values, boolean, not)])
  }

  // ---------------------------------------------------------------------------
  // What the updates mean once compiled

  lemma AppendSupported(ws: seq<Clause>, c: Clause)
    requires AllSupported(ws) && Supported(c)
    ensures AllSupported(ws + [c])
    ensures Contributions(ws + [c]) == Contributions(ws) + [Contribution(c)]
  {
    assert forall i :: 0 <= i < |ws| ==> (ws + [c])[i] == ws[i];
  }

  /** After find(id) the filter pins `_id` to the id, whatever earlier clauses said about it. */
  lemma FindPinsId(q: Query, id: Value)
    requires AllSupported(q.wheres)
    ensures CompileWheres(Find(q, id).wheres).Ok?
    ensures Lookup(CompileWheres(Find(q, id).wheres).value, "_id") == Some(id)
  {
    EqualityIsBare("_id", id);
    assert Contribution(IdClause(id)) == ("_id", id);
    AppendSupported(q.wheres, IdClause(id));
  }

  /** delete(null) on a fresh query deletes every document: the filter is empty. */
  lemma DeleteNullMatchesAll(collection: string)
    ensures Delete(NewQuery(collection), Null) == Ok(Unit(collection, DeleteMany(EmptyDoc)))
  {
  }

  /** delete(id) removes by id: the filter's `_id` entry is the id. */
  lemma DeleteById(q: Query, id: Value)
    requires AllSupported(q.wheres)
    requires id != Null
    ensures Delete(q, id).Ok?
    ensures Lookup(Delete(q, id).value.statement.filter, "_id") == Some(id)
  {
    FindPinsId(q, id);
  }

  /** Truncation ignores wheres, limits and every other part of the query. */
  lemma TruncateIgnoresState(q: Query, other: Query)
    requires q.from == other.from
    ensures Truncate(q) == Truncate(other)
  {
  }

  /** The computed field added last is in the compiled `$addFields` document with its expression. */
  lemma AddFieldCompiled(q: Query, column: string, expression: Doc)
    ensures Lookup(CompileAddFields(AddField(q, column, expression).addFields), column) == Some(Object(expression))
  {
  }

  /** The projection added last is in the compiled projection document. */
  lemma ProjectCompiled(q: Query, column: string, projection: Value)
    ensures Lookup(CompileProjections(Project(q, column, projection).projections), column) == Some(projection)
  {
  }

  /** The range added last by whereBetween is the filter's condition on the column. */
  lemma WhereBetweenCompiled(q: Query, column: string, values: seq<Value>, boolean: string)
    requires AllSupported(q.wheres)
    ensures CompileWheres(WhereBetween(q, column, values, boolean, false).wheres).Ok?
    ensures Lookup(CompileWheres(WhereBetween(q, column, values, boolean, false).wheres).value, column)
      == Some(Object(Doc([("$gte", Nth(values, 0)), ("$lte", Nth(values, 1))])))
  {
    var c := Between(column, values, boolean, false);
    assert Contribution(c) == (column, Object(Doc([("$gte", Nth(values, 0)), ("$lte", Nth(values, 1))])));
    AppendSupported(q.wheres, c);
  }

  /** The complement added last by whereNotBetween is the filter's `$or`, with the bounds swapped to strict. */
  lemma WhereNotBetweenCompiled(q: Query, column: string, values: seq<Value>, boolean: string)
    requires AllSupported(q.wheres)
    ensures CompileWheres(WhereBetween(q, column, values, boolean, true).wheres).Ok?
    ensures Lookup(CompileWheres(WhereBetween(q, column, values, boolean, true).wheres).value, "$or")
      == Some(List([
        Object(Single(column, Object(Single("$lt", Nth(values, 0))))),
        Object(Single(column, Object(Single("$gt", Nth(values, 1)))))]))
  {
    var c := Between(column, values, boolean, true);
    var or := List([
      Object(Single(column, Object(Single("$lt", Nth(values, 0))))),
      Object(Single(column, Object(Single("$gt", Nth(values, 1)))))]);
    assert Translate(c) == Ok(Single("$or", or));
    assert Contribution(c) == ("$or", or);
    AppendSupported(q.wheres, c);
    assert LastValue(Contributions(q.wheres + [c]), "$or") == Some(or);
  }
}

=== FILE: connector.dfy ===
/**
 * MongoConnector: the connection string built from a configuration array, and
 * the client options merged from it. The configuration is a document (a PHP
 * array); a missing key reads as null.
 */
module Connector {
  import opened Wrappers
  import opened Strings
  import opened Documents

  /** What `new Client(dsn, options, driverOptions)` is given. */
  datatype ClientArguments = ClientArguments(dsn: string, options: Doc, driverOptions: Doc)

  /** PHP `isset($a[k])`: present and not null. */
  predicate IsSet(d: Doc, k: string) {
    Get(d, k) != Null
  }

  /** `$config[key]` when it is set and an array, else the empty array. */
  function ArrayOption(config: Doc, key: string): (r: Doc)
    ensures AsArray(Get(config, key)).None? ==> r == EmptyDoc
    ensures AsArray(Get(config, key)).Some? ==> r == AsArray(Get(config, key)).value
  {
    if IsSet(config, key) && AsArray(Get(config, key)).Some? then AsArray(Get(config, key)).value else EmptyDoc
  }

  // ---------------------------------------------------------------------------
  // getDsn

  /** `$config['host']` as a list: an array's values in order, any other value alone. */
  function HostValues(host: Value): (r: seq<Value>)
    ensures !host.List? && !host.Object? ==> r == [host]
    ensures host.List? ==> r == host.items
  {
    match host
    case List(items) => items
    case Object(d) => Values(d)
    case _ => [host]
  }

  /** One host, with `:port` appended when a port is configured and the host names none. */
  function WithPort(host: string, port: Value): (r: string)
    ensures ':' in host || IsEmpty(port) ==> r == host
    ensures !IsEmpty(port) ==> ':' in r
    ensures StartsWith(r, host)
  {
    if !IsEmpty(port) && ':' !in host then host + ":" + ToText(port) else host
  }

  /** Appending the port twice is appending it once. */
  lemma WithPortIdempotent(host: string, port: Value)
    ensures WithPort(WithPort(host, port), port) == WithPort(host, port)
  {
  }

  /** A host without `:` gets exactly `:` and the port's text. */
  lemma PortAppended(host: string, port: Value)
    requires ':' !in host && !IsEmpty(port)
    ensures WithPort(host, port) == host + ":" + ToText(port)
    ensures WithPort(host, port)[..|host|] == host
  {
  }

  function Hosts(config: Doc): (r: seq<string>)
    ensures |r| == |HostValues(Get(config, "host"))|
    ensures forall i :: 0 <= i < |r| ==> r[i] == WithPort(ToText(HostValues(Get(config, "host"))[i]), Get(config, "port"))
  {
    var hosts := HostValues(Get(config, "host"));
    seq(|hosts|, i requires 0 <= i < |hosts| => WithPort(ToText(hosts[i]), Get(config, "port")))
  }

  /** `$config['options']['database']` when the options are set and it is non-empty. */
  function AuthDatabase(config: Doc): (r: Option<Value>)
    ensures r.Some? ==> !IsEmpty(r.value)
  {
    var options := Get(config, "options");
    if IsSet(config, "options") && AsArray(options).Some? && !IsEmpty(Get(AsArray(options).value, "database"))
    then Some(Get(AsArray(options).value, "database"))
    else None
  }

  function AuthSuffix(config: Doc): string {
    match AuthDatabase(config)
    case Some(db) => "/" + ToText(db)
    case None => ""
  }

  const Scheme := "mongodb://"

  /** getDsn: a non-empty `dsn` verbatim; else the scheme, the hosts joined by `,`, and `/authDb`. */
  function GetDsn(config: Doc): (r: string)
    ensures IsSet(config, "dsn") && !IsEmpty(Get(config, "dsn")) ==> r == ToText(Get(config, "dsn"))
    ensures IsEmpty(Get(config, "dsn")) ==> StartsWith(r, Scheme)
  {
    var dsn := Get(config, "dsn");
    if IsSet(config, "dsn") && !IsEmpty(dsn) then ToText(dsn)
    else Scheme + Join(Hosts(config), ',') + AuthSuffix(config)
  }

  /** A non-empty `dsn` decides the result alone: nothing else in the configuration matters. */
  lemma DsnOverridesEverything(config: Doc, other: Doc)
    requires !IsEmpty(Get(config, "dsn"))
    requires Get(other, "dsn") == Get(config, "dsn")
    ensures GetDsn(config) == GetDsn(other)
  {
  }

  /** Without a `dsn` or an auth database, the hosts can be read back off the string in order. */
  lemma HostsRecoverable(config: Doc)
    requires IsEmpty(Get(config, "dsn"))
    requires AuthDatabase(config).None?
    requires |Hosts(config)| >= 1
    requires forall i :: 0 <= i < |Hosts(config)| ==> ',' !in Hosts(config)[i]
    ensures StartsWith(GetDsn(config), Scheme)
    ensures Split(GetDsn(config)[|Scheme|..], ',') == Hosts(config)
  {
    var body := Join(Hosts(config), ',');
    assert GetDsn(config) == Scheme + body;
    assert GetDsn(config)[|Scheme|..] == body;
    SplitJoin(Hosts(config), ',');
  }

  /** A scalar host is a one-host list: `mongodb://host[:port][/db]`. */
  lemma ScalarHost(config: Doc)
    requires IsEmpty(Get(config, "dsn"))
    requires !Get(config, "host").List? && !Get(config, "host").Object?
    ensures GetDsn(config) == Scheme + WithPort(ToText(Get(config, "host")), Get(config, "port")) + AuthSuffix(config)
  {
    assert Hosts(config) == [WithPort(ToText(Get(config, "host")), Get(config, "port"))];
  }

  /** The auth database is appended, after the scheme and the joined hosts, exactly when `options.database` is non-empty. */
  lemma AuthDatabaseSuffix(config: Doc)
    requires IsEmpty(Get(config, "dsn"))
    ensures AuthDatabase(config).Some? ==>
      GetDsn(config) == Scheme + Join(Hosts(config), ',') + "/" + ToText(AuthDatabase(config).value)
    ensures AuthDatabase(config).Some? ==> EndsWith(GetDsn(config), "/" + ToText(AuthDatabase(config).value))
    ensures AuthDatabase(config).None? ==> GetDsn(config) == Scheme + Join(Hosts(config), ',')
  {
  }

  /** With an auth database, the hosts can still be read back off the string between the scheme and `/db`. */
  lemma HostsRecoverableWithDatabase(config: Doc)
    requires IsEmpty(Get(config, "dsn"))
    requires AuthDatabase(config).Some?
    requires |Hosts(config)| >= 1
    requires forall i :: 0 <= i < |Hosts(config)| ==> ',' !in Hosts(config)[i]
    ensures var d := GetDsn(config);
      var suffix := "/" + ToText(AuthDatabase(config).value);
      && StartsWith(d, Scheme) && EndsWith(d, suffix)
      && Split(d[|Scheme|..|d| - |suffix|], ',') == Hosts(config)
  {
    var body := Join(Hosts(config), ',');
    var suffix := "/" + ToText(AuthDatabase(config).value);
    var d := GetDsn(config);
    assert d == Scheme + body + suffix;
    assert d[|Scheme|..|d| - |suffix|] == body;
    assert d[..|Scheme|] == Scheme;
    assert d[|d| - |suffix|..] == suffix;
    SplitJoin(Hosts(config), ',');
  }

  // ---------------------------------------------------------------------------
  // connect

  /** A credential copied from the configuration only into a gap in the options. */
  function MergeCredential(options: Doc, config: Doc, key: string): (r: Doc)
    ensures IsSet(options, key) ==> r == options
    ensures forall k :: k != key ==> Lookup(r, k) == Lookup(options, k)
  {
    if !IsSet(options, key) && !IsEmpty(Get(config, key)) then Set(options, key, Get(config, key)) else options
  }

  /** The arguments connect hands to the client. */
  function Connect(config: Doc): (r: ClientArguments)
    ensures r.dsn == GetDsn(config)
    ensures r.driverOptions == ArrayOption(config, "driver_options")
  {
    var options := ArrayOption(config, "options");
    var withUser := MergeCredential(options, config, "username");
    var withPassword := MergeCredential(withUser, config, "password");
    ClientArguments(GetDsn(config), withPassword, ArrayOption(config, "driver_options"))
  }

  predicate IsCredential(key: string) {
    key == "username" || key == "password"
  }

  /** A credential already in the options is never replaced. */
  lemma CredentialsNeverOverwritten(config: Doc, key: string)
    requires IsCredential(key)
    requires IsSet(ArrayOption(config, "options"), key)
    ensures Lookup(Connect(config).options, key) == Lookup(ArrayOption(config, "options"), key)
  {
  }

  /** A missing credential is filled from a non-empty configuration value. */
  lemma CredentialsFillGap(config: Doc, key: string)
    requires IsCredential(key)
    requires !IsSet(ArrayOption(config, "options"), key)
    requires !IsEmpty(Get(config, key))
    ensures Lookup(Connect(config).options, key) == Some(Get(config, key))
  {
  }

  /** An empty configuration credential changes nothing. */
  lemma EmptyCredentialIgnored(config: Doc, key: string)
    requires IsCredential(key)
    requires IsEmpty(Get(config, key))
    ensures Lookup(Connect(config).options, key) == Lookup(ArrayOption(config, "options"), key)
  {
  }

  /** Options other than the credentials pass through unchanged. */
  lemma OtherOptionsKept(config: Doc, key: string)
    requires !IsCredential(key)
    ensures Lookup(Connect(config).options, key) == Lookup(ArrayOption(config, "options"), key)
  {
  }

  /** Without array `options` and `driver_options`, the client gets only the configured credentials. */
  lemma OptionsDefaultEmpty(config: Doc)
    requires AsArray(Get(config, "options")).None? && AsArray(Get(config, "driver_options")).None?
    requires IsEmpty(Get(config, "username")) && IsEmpty(Get(config, "password"))
    ensures Connect(config).options == EmptyDoc
    ensures Connect(config).driverOptions == EmptyDoc
  {
  }
}

=== FILE: documents.dfy ===
/**
 * BSON-like values and documents, with the PHP array semantics the grammar relies on:
 * a document is an ordered list of (key, value) pairs, assigning an existing key
 * overwrites it in place and assigning a new key appends it.
 */
module Documents {
  import opened Wrappers
  import opened Strings

  datatype Value =
    | Null
    | Bool(b: bool)
    | Int(i: int)
    | Str(s: string)
    | List(items: seq<Value>)
    | Object(doc: Doc)
    | Regex(pattern: string, flags: string)
      /** A driver object such as an ObjectId or a UTCDateTime, with its string form. */
    | Native(text: string)

  datatype Doc = Doc(entries: seq<(string, Value)>)

  const EmptyDoc := Doc([])

  function KeysOf(es: seq<(string, Value)>): (r: seq<string>)
    ensures |r| == |es|
    ensures forall i :: 0 <= i < |es| ==> r[i] == es[i].0
  {
    if |es| == 0 then [] else [es[0].0] + KeysOf(es[1..])
  }

  /** The value stored under `k`: the first pair with that key. */
  function Find(es: seq<(string, Value)>, k: string): (r: Option<Value>)
    ensures r.Some? <==> k in KeysOf(es)
  {
    if |es| == 0 then None
    else if es[0].0 == k then Some(es[0].1)
    else
      assert KeysOf(es) == [es[0].0] + KeysOf(es[1..]);
      Find(es[1..], k)
  }

  /** PHP `$a[k] = v`: overwrite in place when `k` is present, append otherwise. */
  function Put(es: seq<(string, Value)>, k: string, v: Value): seq<(string, Value)> {
    if |es| == 0 then [(k, v)]
    else if es[0].0 == k then [(k, v)] + es[1..]
    else [es[0]] + Put(es[1..], k, v)
  }

  /** `Find` on a pair followed by more pairs. */
  lemma FindCons(p: (string, Value), es: seq<(string, Value)>, k: string)
    ensures Find([p] + es, k) == if p.0 == k then Some(p.1) else Find(es, k)
  {
    assert ([p] + es)[1..] == es;
  }

  lemma KeysOfCons(p: (string, Value), es: seq<(string, Value)>)
    ensures KeysOf([p] + es) == [p.0] + KeysOf(es)
  {
    assert ([p] + es)[1..] == es;
  }

  /** After the assignment the key holds the assigned value. */
  lemma {:induction false} PutFinds(es: seq<(string, Value)>, k: string, v: Value)
    ensures Find(Put(es, k, v), k) == Some(v)
  {
    if |es| > 0 {
      if es[0].0 == k {
        FindCons((k, v), es[1..], k);
      } else {
        PutFinds(es[1..], k, v);
        FindCons(es[0], Put(es[1..], k, v), k);
      }
    }
  }

  /** The assignment leaves every other key's value alone. */
  lemma {:induction false} PutKeeps(es: seq<(string, Value)>, k: string, v: Value, other: string)
    requires other != k
    ensures Find(Put(es, k, v), other) == Find(es, other)
  {
    if |es| > 0 {
      assert [es[0]] + es[1..] == es;
      FindCons(es[0], es[1..], other);
      if es[0].0 == k {
        FindCons((k, v), es[1..], other);
      } else {
        PutKeeps(es[1..], k, v, other);
        FindCons(es[0], Put(es[1..], k, v), other);
      }
    }
  }

  /** The assignment keeps the key order, appending a key it has not seen. */
  lemma {:induction false} PutKeys(es: seq<(string, Value)>, k: string, v: Value)
    ensures k in KeysOf(es) ==> KeysOf(Put(es, k, v)) == KeysOf(es)
    ensures k !in KeysOf(es) ==> KeysOf(Put(es, k, v)) == KeysOf(es) + [k]
  {
    if |es| > 0 {
      assert [es[0]] + es[1..] == es;
      KeysOfCons(es[0], es[1..]);
      if es[0].0 == k {
        KeysOfCons((k, v), es[1..]);
      } else {
        PutKeys(es[1..], k, v);
        KeysOfCons(es[0], Put(es[1..], k, v));
      }
    }
  }

  function Keys(d: Doc): seq<string> {
    KeysOf(d.entries)
  }

  function Lookup(d: Doc, k: string): Option<Value> {
    Find(d.entries, k)
  }

  /** PHP reads an undefined index as `null`. */
  function Get(d: Doc, k: string): Value {
    Lookup(d, k).GetOr(Null)
  }

  function Set(d: Doc, k: string, v: Value): (r: Doc)
    ensures Lookup(r, k) == Some(v)
    ensures forall k' :: k' != k ==> Lookup(r, k') == Lookup(d, k')
    ensures k in Keys(d) ==> Keys(r) == Keys(d)
    ensures k !in Keys(d) ==> Keys(r) == Keys(d) + [k]
  {
    PutFinds(d.entries, k, v);
    PutKeys(d.entries, k, v);
    PutKeepsAll(d.entries, k, v);
    Doc(Put(d.entries, k, v))
  }

  lemma PutKeepsAll(es: seq<(string, Value)>, k: string, v: Value)
    ensures forall other :: other != k ==> Find(Put(es, k, v), other) == Find(es, other)
  {
    forall other | other != k ensures Find(Put(es, k, v), other) == Find(es, other) {
      PutKeeps(es, k, v, other);
    }
  }

  function Single(k: string, v: Value): Doc {
    Doc([(k, v)])
  }

  function Values(d: Doc): (r: seq<Value>)
    ensures |r| == |d.entries|
  {
    seq(|d.entries|, i requires 0 <= i < |d.entries| => d.entries[i].1)
  }

  predicate Distinct(ks: seq<string>) {
    forall i, j :: 0 <= i < j < |ks| ==> ks[i] != ks[j]
  }

  /** The value of the last pair whose key is `k`: the one a run of assignments leaves behind. */
  function LastValue(ps: seq<(string, Value)>, k: string): Option<Value> {
    if |ps| == 0 then None
    else if ps[|ps| - 1].0 == k then Some(ps[|ps| - 1].1)
    else LastValue(ps[..|ps| - 1], k)
  }

  /**
   * The document left by `$d = []; foreach ($ps as [$k, $v]) $d[$k] = $v;`:
   * every key once, holding the value of its last assignment.
   */
  function FromPairs(ps: seq<(string, Value)>): (r: Doc)
    ensures forall k :: Lookup(r, k) == LastValue(ps, k)
    ensures Distinct(Keys(r))
  {
    if |ps| == 0 then EmptyDoc
    else
      var front := FromPairs(ps[..|ps| - 1]);
      var last := ps[|ps| - 1];
      var r := Set(front, last.0, last.1);
      assert Distinct(Keys(r)) by {
        if last.0 !in Keys(front) {
          DistinctAppend(Keys(front), last.0);
        }
      }
      assert forall k :: Lookup(r, k) == LastValue(ps, k) by {
        forall k ensures Lookup(r, k) == LastValue(ps, k) {
          if k != last.0 {
            assert LastValue(ps, k) == LastValue(ps[..|ps| - 1], k);
          }
        }
      }
      r
  }

  lemma DistinctAppend(ks: seq<string>, k: string)
    requires Distinct(ks) && k !in ks
    ensures Distinct(ks + [k])
  {
    forall i, j | 0 <= i < j < |ks| + 1 ensures (ks + [k])[i] != (ks + [k])[j] {
      if j == |ks| {
        assert (ks + [k])[i] == ks[i];
      } else {
        assert (ks + [k])[i] == ks[i] && (ks + [k])[j] == ks[j];
      }
    }
  }

  /** One more assignment at the end: the document so far with that key set. */
  lemma FromPairsSnoc(ps: seq<(string, Value)>, p: (string, Value))
    ensures FromPairs(ps + [p]) == Set(FromPairs(ps), p.0, p.1)
  {
    assert (ps + [p])[..|ps|] == ps;
  }

  /** Assigning one key twice leaves one pair, holding the second value. */
  lemma AssignTwice(k: string, v1: Value, v2: Value)
    ensures FromPairs([(k, v1), (k, v2)]) == Single(k, v2)
  {
    var ps := [(k, v1), (k, v2)];
    assert ps[..1] == [(k, v1)];
    assert ps[..1][..0] == [];
    assert FromPairs(ps[..1]) == Single(k, v1);
    assert Put([(k, v1)], k, v2) == [(k, v2)];
  }

  /** Assigning a key not yet present appends it. */
  lemma {:induction false} PutNew(es: seq<(string, Value)>, k: string, v: Value)
    requires k !in KeysOf(es)
    ensures Put(es, k, v) == es + [(k, v)]
  {
    if |es| > 0 {
      assert KeysOf(es) == [es[0].0] + KeysOf(es[1..]);
      PutNew(es[1..], k, v);
      assert Put(es, k, v) == [es[0]] + (es[1..] + [(k, v)]);
    }
  }

  /** Dropping the last key keeps the keys distinct, and the dropped key is not among them. */
  lemma DistinctPrefix(ks: seq<string>)
    requires Distinct(ks) && |ks| > 0
    ensures Distinct(ks[..|ks| - 1])
    ensures ks[|ks| - 1] !in ks[..|ks| - 1]
  {
    var front := ks[..|ks| - 1];
    forall i | 0 <= i < |front| ensures front[i] != ks[|ks| - 1] {
      assert front[i] == ks[i];
    }
  }

  lemma KeysOfPrefix(ps: seq<(string, Value)>)
    requires |ps| > 0
    ensures KeysOf(ps[..|ps| - 1]) == KeysOf(ps)[..|ps| - 1]
  {
  }

  /** Assignments to distinct keys leave exactly those pairs, in order. */
  lemma {:induction false} AssignDistinct(ps: seq<(string, Value)>)
    requires Distinct(KeysOf(ps))
    ensures FromPairs(ps).entries == ps
  {
    if |ps| > 0 {
      var front := ps[..|ps| - 1];
      var last := ps[|ps| - 1];
      KeysOfPrefix(ps);
      DistinctPrefix(KeysOf(ps));
      AssignDistinct(front);
      PutNew(front, last.0, last.1);
      assert FromPairs(ps).entries == Put(FromPairs(front).entries, last.0, last.1);
      assert ps == front + [last];
    }
  }

  /** A key is present after the assignments exactly when some pair assigned it. */
  lemma {:induction false} LastValuePresent(ps: seq<(string, Value)>, k: string)
    ensures LastValue(ps, k).Some? <==> k in KeysOf(ps)
  {
    if |ps| > 0 {
      LastValuePresent(ps[..|ps| - 1], k);
      assert KeysOf(ps) == KeysOf(ps[..|ps| - 1]) + [ps[|ps| - 1].0];
    }
  }

  /** The keys in the order they were first assigned, each once. */
  function FirstOccurrences(ks: seq<string>): seq<string> {
    if |ks| == 0 then []
    else
      var front := FirstOccurrences(ks[..|ks| - 1]);
      if ks[|ks| - 1] in ks[..|ks| - 1] then front else front + [ks[|ks| - 1]]
  }

  /** Keeping first occurrences drops repeats and nothing else. */
  lemma {:induction false} FirstOccurrencesMembers(ks: seq<string>, x: string)
    ensures x in FirstOccurrences(ks) <==> x in ks
  {
    if |ks| > 0 {
      FirstOccurrencesMembers(ks[..|ks| - 1], x);
      assert ks == ks[..|ks| - 1] + [ks[|ks| - 1]];
    }
  }

  /** A run of assignments lists each key at the place of its first assignment: later ones overwrite in place. */
  lemma {:induction false} FromPairsKeyOrder(ps: seq<(string, Value)>)
    ensures Keys(FromPairs(ps)) == FirstOccurrences(KeysOf(ps))
  {
    if |ps| > 0 {
      var front := ps[..|ps| - 1];
      var last := ps[|ps| - 1];
      FromPairsKeyOrder(front);
      KeysOfPrefix(ps);
      FirstOccurrencesMembers(KeysOf(front), last.0);
      assert KeysOf(ps)[|ps| - 1] == last.0;
    }
  }

  // ---------------------------------------------------------------------------
  // PHP conversions of a value

  /** PHP `empty($v)`: null, false, 0, "", "0" and the empty array. */
  predicate IsEmpty(v: Value) {
    match v
    case Null => true
    case Bool(b) => !b
    case Int(i) => i == 0
    case Str(s) => s == "" || s == "0"
    case List(items) => |items| == 0
    case Object(d) => |d.entries| == 0
    case Regex(_, _) => false
    case Native(_) => false
  }

  /** PHP's string conversion of a value, as `.` and the string functions apply it. */
  function ToText(v: Value): string {
    match v
    case Null => ""
    case Bool(b) => if b then "1" else ""
    case Int(i) => ShowInt(i)
    case Str(s) => s
    case List(_) => "Array"
    case Object(_) => "Array"
    case Regex(p, f) => "/" + p + "/" + f
    case Native(t) => t
  }

  /** PHP's `(int)` cast of a value. */
  function ToInt(v: Value): int {
    match v
    case Null => 0
    case Bool(b) => if b then 1 else 0
    case Int(i) => i
    case Str(s) => ParseInt(s)
    case List(items) => if |items| == 0 then 0 else 1
    case Object(d) => if |d.entries| == 0 then 0 else 1
    case Regex(_, _) => 1
    case Native(_) => 1
  }

  /** A PHP list array read as a keyed array: keys "0", "1", ... */
  function ListAsDoc(items: seq<Value>): (r: Doc)
    ensures |r.entries| == |items|
  {
    Doc(seq(|items|, i requires 0 <= i < |items| => (ShowInt(i), items[i])))
  }

  /** `is_array($v)`, giving the array as a document. */
  function AsArray(v: Value): Option<Doc> {
    match v
    case Object(d) => Some(d)
    case List(items) => Some(ListAsDoc(items))
    case _ => None
  }

  /** Casting an integer to an int and back is the identity, also through its text. */
  lemma IntCastOfText(n: int)
    ensures ToInt(Str(ToText(Int(n)))) == n
  {
    ParseShowInt(n);
  }
}

=== FILE: grammar.dfy ===
/**
 * MongoGrammar: translation of a query description into an aggregation
 * pipeline (select) or into a filter and payload (insert, update, delete,
 * truncate). Every relational construct without a pipeline equivalent fails
 * with `Unsupported`.
 */
module Grammar {
  import opened Wrappers
  import opened Strings
  import opened Documents
  import opened Queries
  import Like

  datatype Error = Unsupported(construct: Construct)

  /** What an executable unit asks of its collection; the constructor is the operation tag. */
  datatype Statement =
    | AggregateCall(pipeline: seq<Doc>, options: Doc)
    | InsertMany(documents: seq<Doc>)
    | InsertOne(document: Doc)
    | UpdateMany(filter: Doc, update: Doc)
    | DeleteMany(filter: Doc)
    | Drop

  /** A compiled operation bound to a collection, run later against a database handle. */
  datatype Unit = Unit(collection: string, statement: Statement)

  // ---------------------------------------------------------------------------
  // Operator vocabulary

  /** The operator names the grammar declares, as written in the source (with its misspelt `bitaAnyClear`). */
  const OperatorsAsWritten: seq<string> := [
    "eq", "gt", "gte", "in", "lt", "lte", "ne", "nin", "exists", "type", "expr", "mod", "regex", "text",
    "where", "geoIntersects", "geoWithin", "near", "nearSphere", "box", "center", "centerSphere",
    "geometry", "maxDistance", "minDistance", "polygon", "uniqueDocs", "all", "elemMatch", "size",
    "bitsAllClear", "bitsAllSet", "bitaAnyClear", "bitsAnySet", "slice"]

  /** The same list with the misspelt bitwise operator spelt as MongoDB spells it. */
  const Operators: seq<string> := OperatorsAsWritten[32 := "bitsAnyClear"]

  /** MongoDB's query and projection operator names, without the `$`. */
  const MongoOperatorNames: set<string> := {
    "eq", "gt", "gte", "in", "lt", "lte", "ne", "nin",
    "and", "not", "nor", "or",
    "exists", "type",
    "expr", "jsonSchema", "mod", "regex", "text", "where",
    "geoIntersects", "geoWithin", "near", "nearSphere", "box", "center", "centerSphere",
    "geometry", "maxDistance", "minDistance", "polygon", "uniqueDocs",
    "all", "elemMatch", "size",
    "bitsAllClear", "bitsAllSet", "bitsAnyClear", "bitsAnySet",
    "slice", "meta"}

  function LowerAll(names: seq<string>): (r: seq<string>)
    ensures |r| == |names|
    ensures forall i :: 0 <= i < |names| ==> r[i] == Lower(names[i]) && IsLowerCase(r[i])
  {
    seq(|names|, i requires 0 <= i < |names| => Lower(names[i]))
  }

  /** The operator names offered to `where`, lower-cased; all of them MongoDB operators. */
  function GetOperators(): (r: seq<string>)
    ensures |r| == |Operators|
    ensures forall i :: 0 <= i < |r| ==> IsLowerCase(r[i]) && r[i] == Lower(Operators[i])
    ensures forall i :: 0 <= i < |r| ==> Operators[i] in MongoOperatorNames
  {
    OperatorsAreMongoOperators();
    LowerAll(Operators)
  }

  /** The operator names as the source lists them. */
  function GetOperatorsAsWritten(): (r: seq<string>)
    ensures |r| == |OperatorsAsWritten|
    ensures forall i :: 0 <= i < |r| ==> IsLowerCase(r[i]) && r[i] == Lower(OperatorsAsWritten[i])
    ensures OperatorsAsWritten[32] !in MongoOperatorNames
  {
    MisspeltOperatorAsWritten();
    LowerAll(OperatorsAsWritten)
  }

  /** Every declared name is a MongoDB operator once the misspelling is corrected. */
  lemma OperatorsAreMongoOperators()
    ensures forall i :: 0 <= i < |Operators| ==> Operators[i] in MongoOperatorNames
  {
    assert forall i :: 0 <= i < 12 ==> Operators[i] in MongoOperatorNames;
    assert forall i :: 12 <= i < 24 ==> Operators[i] in MongoOperatorNames;
    assert forall i :: 24 <= i < |Operators| ==> Operators[i] in MongoOperatorNames;
  }

  /** The name as written at position 32 is no MongoDB operator. */
  lemma MisspeltNameUnknown()
    ensures OperatorsAsWritten[32] == "bitaAnyClear" && OperatorsAsWritten[32] !in MongoOperatorNames
    ensures Operators[32] == "bitsAnyClear" && Operators[32] in MongoOperatorNames
  {
    assert "bitaAnyClear" !in MongoOperatorNames by {
      assert forall n | n in MongoOperatorNames && |n| == 12 :: n[3] != 'a';
      assert "bitaAnyClear"[3] == 'a';
    }
  }

  /** No position of the list as written holds `bitsAnyClear`. */
  lemma BitsAnyClearMissing()
    ensures "bitsAnyClear" !in OperatorsAsWritten
  {
    assert forall i :: 0 <= i < 12 ==> OperatorsAsWritten[i] != "bitsAnyClear";
    assert forall i :: 12 <= i < 24 ==> OperatorsAsWritten[i] != "bitsAnyClear";
    assert forall i :: 24 <= i < |OperatorsAsWritten| ==> OperatorsAsWritten[i] != "bitsAnyClear";
  }

  /**
   * As written, the list differs from the corrected one in exactly one name, which
   * MongoDB does not have, and it never offers `bitsAnyClear`.
   */
  lemma MisspeltOperatorAsWritten()
    ensures OperatorsAsWritten[32] !in MongoOperatorNames
    ensures "bitsAnyClear" !in OperatorsAsWritten && "bitsAnyClear" in Operators
    ensures |OperatorsAsWritten| == |Operators|
    ensures forall i :: 0 <= i < |Operators| && i != 32 ==> OperatorsAsWritten[i] == Operators[i]
  {
    MisspeltNameUnknown();
    BitsAnyClearMissing();
  }


  // ---------------------------------------------------------------------------
  // Basic comparisons

  const OperatorConversion: map<string, string> :=
    map["!=" := "ne", "<>" := "ne", "<" := "lt", "<=" := "lte", ">" := "gt", ">=" := "gte"]

  const RegexOperators: set<string> := {"regexp", "not regexp", "regex", "not regex"}

  /** The piece `explode` left at index `i`, or the empty string PHP reads a missing one as. */
  function PieceOr(pieces: seq<string>, i: nat): string {
    if i < |pieces| then pieces[i] else ""
  }

  /** A regex operand: a Regex stays, a string `/pattern/flags` is split on its own first character. */
  function RegexOperand(v: Value): (r: Value)
    ensures r.Regex?
  {
    if v.Regex? then v
    else
      var s := ToText(v);
      if |s| == 0 then Regex("", "")
      else
        var pieces := Split(s, s[0]);
        Regex(PieceOr(pieces, 1), PieceOr(pieces, 2))
  }

  /** What a `Basic` clause puts under its column, for an operator without leading `$`. */
  function Condition(op: string, value: Value): Value {
    if op == "like" then
      Regex(Like.Pattern(ToText(value)), "i")
    else if op in RegexOperators then
      if StartsWith(op, "not") then Object(Single("$not", RegexOperand(value)))
      else RegexOperand(value)
    else
      var mongo := if op in OperatorConversion then OperatorConversion[op] else op;
      if mongo == "=" then value
      else Object(Single("$" + mongo, value))
  }

  /** A `Basic` clause: `{column: value}` for equality, `{column: {$op: value}}` otherwise. */
  function WhereBasic(column: string, operator: string, value: Value): (r: Doc)
    ensures Keys(r) == [column]
  {
    Single(column, Condition(TrimLeft(operator, '$'), value))
  }

  /** A string of `n` dollar signs. */
  function Dollars(n: nat): (r: string)
    ensures |r| == n && forall i :: 0 <= i < n ==> r[i] == '$'
  {
    if n == 0 then "" else "$" + Dollars(n - 1)
  }

  lemma {:induction false} TrimDollars(n: nat, operator: string)
    ensures TrimLeft(Dollars(n) + operator, '$') == TrimLeft(operator, '$')
  {
    if n > 0 {
      var text := Dollars(n) + operator;
      assert text[0] == '$';
      assert text[1..] == Dollars(n - 1) + operator;
      assert TrimLeft(text, '$') == TrimLeft(text[1..], '$');
      TrimDollars(n - 1, operator);
    } else {
      assert Dollars(n) + operator == operator;
    }
  }

  /** Leading `$` on an operator are all stripped: `$gt`, `$$gt` and `gt` compile alike. */
  lemma SigilsIgnored(column: string, operator: string, value: Value, n: nat)
    ensures WhereBasic(column, Dollars(n) + operator, value) == WhereBasic(column, operator, value)
  {
    TrimDollars(n, operator);
  }

  /** `=` compiles to the bare value under the column; no operator document. */
  lemma EqualityIsBare(column: string, value: Value)
    ensures WhereBasic(column, "=", value) == Single(column, value)
    ensures Lookup(WhereBasic(column, "=", value), column) == Some(value)
  {
  }

  /** Both SQL spellings of inequality compile to `$ne`. */
  lemma InequalityConverted(column: string, value: Value)
    ensures WhereBasic(column, "!=", value) == Single(column, Object(Single("$ne", value)))
    ensures WhereBasic(column, "<>", value) == Single(column, Object(Single("$ne", value)))
  {
    Converted(column, "!=", "ne", value);
    Converted(column, "<>", "ne", value);
    assert "$" + "ne" == "$ne";
  }

  /** The four SQL orderings compile to `$lt`, `$lte`, `$gt` and `$gte`. */
  lemma OrderingConverted(column: string, value: Value)
    ensures WhereBasic(column, "<", value) == Single(column, Object(Single("$lt", value)))
    ensures WhereBasic(column, "<=", value) == Single(column, Object(Single("$lte", value)))
    ensures WhereBasic(column, ">", value) == Single(column, Object(Single("$gt", value)))
    ensures WhereBasic(column, ">=", value) == Single(column, Object(Single("$gte", value)))
  {
    Converted(column, "<", "lt", value);
    Converted(column, "<=", "lte", value);
    Converted(column, ">", "gt", value);
    Converted(column, ">=", "gte", value);
    assert "$" + "lt" == "$lt" && "$" + "lte" == "$lte";
    assert "$" + "gt" == "$gt" && "$" + "gte" == "$gte";
  }

  lemma Converted(column: string, op: string, mongo: string, value: Value)
    requires op in OperatorConversion && OperatorConversion[op] == mongo
    ensures WhereBasic(column, op, value) == Single(column, Object(Single("$" + mongo, value)))
  {
    assert |op| > 0 && op[0] != '$';
    assert TrimLeft(op, '$') == op;
    assert op != "like" && op !in RegexOperators;
  }

  /** Any other operator is passed through under a single `$`. */
  lemma OtherOperatorsPassThrough(column: string, operator: string, value: Value)
    requires var op := TrimLeft(operator, '$');
      op != "=" && op != "like" && op !in RegexOperators && op !in OperatorConversion
    ensures var op := TrimLeft(operator, '$');
      WhereBasic(column, operator, value) == Single(column, Object(Single("$" + op, value)))
      && (|op| == 0 || op[0] != '$')
  {
  }

  /**
   * `like` becomes a case-insensitive regex equality on the quoted value with every
   * unescaped `%` rewritten to `.*`, anchored at each end without `%`.
   */
  lemma LikeIsAnchoredRegex(column: string, operator: string, value: string)
    requires TrimLeft(operator, '$') == "like"
    ensures WhereBasic(column, operator, Str(value)) == Single(column, Regex(Like.Pattern(value), "i"))
    ensures StartsWith(Like.Pattern(value), "^") <==> !StartsWith(value, "%")
    ensures EndsWith(Like.Pattern(value), "$") <==> !EndsWith(value, "%")
  {
    Like.AnchoredAtStart(value);
    Like.AnchoredAtEnd(value);
  }

  /** Unless the quoted value holds two adjacent `%`, this is also the regex the rewrite as written yields. */
  lemma LikeAgreesAsWritten(column: string, operator: string, value: string)
    requires TrimLeft(operator, '$') == "like"
    requires Like.NoDoublePercent(Like.Quote(value))
    ensures WhereBasic(column, operator, Str(value)) == Single(column, Regex(Like.PatternAsWritten(value), "i"))
  {
    Like.AsWrittenAgrees(Like.Quote(value), true, false);
  }

  /** A delimited string `d pattern d flags` becomes Regex(pattern, flags); the `not` forms negate it. */
  lemma RegexStringSplit(column: string, d: char, pattern: string, flags: string)
    requires d !in pattern && d !in flags
    ensures var s := Str([d] + pattern + [d] + flags);
      && WhereBasic(column, "regex", s) == Single(column, Regex(pattern, flags))
      && WhereBasic(column, "regexp", s) == Single(column, Regex(pattern, flags))
      && WhereBasic(column, "not regex", s) == Single(column, Object(Single("$not", Regex(pattern, flags))))
      && WhereBasic(column, "not regexp", s) == Single(column, Object(Single("$not", Regex(pattern, flags))))
  {
    var text := [d] + pattern + [d] + flags;
    DelimitedOperand(d, pattern, flags);
    assert StartsWith("not regex", "not") && StartsWith("not regexp", "not");
    assert !StartsWith("regex", "not") && !StartsWith("regexp", "not");
    assert TrimLeft("regex", '$') == "regex" && TrimLeft("regexp", '$') == "regexp";
    assert TrimLeft("not regex", '$') == "not regex" && TrimLeft("not regexp", '$') == "not regexp";
  }

  /** The text `d pattern d flags` splits back into the pattern and the flags. */
  lemma DelimitedOperand(d: char, pattern: string, flags: string)
    requires d !in pattern && d !in flags
    ensures RegexOperand(Str([d] + pattern + [d] + flags)) == Regex(pattern, flags)
  {
    var text := [d] + pattern + [d] + flags;
    var parts := ["", pattern, flags];
    assert Join(parts, d) == "" + [d] + Join(parts[1..], d);
    assert parts[1..] == [pattern, flags];
    assert Join([pattern, flags], d) == pattern + [d] + Join([flags], d);
    assert text == Join(parts, d);
    SplitJoin(parts, d);
    assert text[0] == d;
  }

  // ---------------------------------------------------------------------------
  // The other clause types

  /** `$where['values'][i]`, read as null when missing. */
  function Nth(values: seq<Value>, i: nat): Value {
    if i < |values| then values[i] else Null
  }

  function WhereIn(column: string, values: seq<Value>): Doc {
    Single(column, Object(Single("$in", List(values))))
  }

  function WhereNotIn(column: string, values: seq<Value>): Doc {
    Single(column, Object(Single("$nin", List(values))))
  }

  function WhereNull(column: string): Doc {
    Single(column, Null)
  }

  function WhereNotNull(column: string): Doc {
    Single(column, Object(Single("$ne", Null)))
  }

  /** Inclusive range, or for `not` the union of the two open ranges outside it. */
  function WhereBetween(column: string, values: seq<Value>, not: bool): Doc {
    if not then
      Single("$or", List([
        Object(Single(column, Object(Single("$lt", Nth(values, 0))))),
        Object(Single(column, Object(Single("$gt", Nth(values, 1)))))]))
    else
      Single(column, Object(Doc([("$gte", Nth(values, 0)), ("$lte", Nth(values, 1))])))
  }

  /** The expression extracting a date part from the field. */
  function DateExpression(part: DatePart, column: string): Value {
    var field := Str("$" + column);
    match part
    case Day => Object(Single("$dayOfMonth", field))
    case Month => Object(Single("$month", field))
    case Year => Object(Single("$year", field))
    case Date => Object(Single("$dateToString", Object(Doc([("format", Str("%Y-%m-%d")), ("date", field)]))))
    case Time => Object(Single("$dateToString", Object(Doc([("format", Str("%H:%M:%S")), ("date", field)]))))
  }

  /** `{$expr: {$eq: [expression, value]}}`, the value cast to int for day, month and year. */
  function DateBasedWhere(part: DatePart, column: string, value: Value): Doc {
    var operand := if part == Day || part == Month || part == Year then Int(ToInt(value)) else value;
    Single("$expr", Object(Single("$eq", List([DateExpression(part, column), operand]))))
  }

  /**
   * A date-part clause is one `$expr` equality between the extracted part of the
   * field and the operand; day, month and year compare against the `(int)` of the
   * value, so a numeric string matches the number it spells.
   */
  lemma DatePartCompared(part: DatePart, column: string, n: int)
    requires part == Day || part == Month || part == Year
    ensures DateBasedWhere(part, column, Str(ShowInt(n))) == DateBasedWhere(part, column, Int(n))
    ensures Keys(DateBasedWhere(part, column, Int(n))) == ["$expr"]
    ensures Lookup(DateBasedWhere(part, column, Int(n)), "$expr")
      == Some(Object(Single("$eq", List([DateExpression(part, column), Int(n)]))))
  {
    IntCastOfText(n);
  }

  /** Date and time compare the formatted field with the value as given. */
  lemma DateFormatCompared(column: string, value: Value)
    ensures DateBasedWhere(Date, column, value) == Single("$expr", Object(Single("$eq", List([
      Object(Single("$dateToString", Object(Doc([("format", Str("%Y-%m-%d")), ("date", Str("$" + column))])))),
      value]))))
    ensures DateBasedWhere(Time, column, value) == Single("$expr", Object(Single("$eq", List([
      Object(Single("$dateToString", Object(Doc([("format", Str("%H:%M:%S")), ("date", Str("$" + column))])))),
      value]))))
  {
  }

  /** A date clause's operator is never read: `>` or `<` on a date part still compiles to `$eq`. */
  lemma DateOperatorIgnored(part: DatePart, column: string, operator: string, value: Value)
    ensures Translate(DateBased(part, column, operator, value)) == Translate(DateBased(part, column, "=", value))
    ensures Lookup(Translate(DateBased(part, column, operator, value)).value, "$expr").value.doc.entries[0].0 == "$eq"
  {
  }

  /** The clause handler `where{type}` selected by the clause's tag. */
  function Translate(c: Clause): (r: Result<Doc, Error>)
    ensures r.Fail? <==> c.Unhandled?
  {
    match c
    case Basic(column, operator, value) => Ok(WhereBasic(column, operator, value))
    case In(column, values) => Ok(WhereIn(column, values))
    case NotIn(column, values) => Ok(WhereNotIn(column, values))
    case IsNull(column) => Ok(WhereNull(column))
    case NotNull(column) => Ok(WhereNotNull(column))
    case Between(column, values, _, not) => Ok(WhereBetween(column, values, not))
    case DateBased(part, column, _, value) => Ok(DateBasedWhere(part, column, value))
    case Raw(sql) => Ok(sql)
    case Unhandled(kind) => Fail(Unsupported(kind))
  }

  // ---------------------------------------------------------------------------
  // Folding the clauses into one filter

  /** `[key($d) => current($d)]`: the first pair, or ("" => false) for an empty array. */
  function Head(d: Doc): (string, Value) {
    if |d.entries| == 0 then ("", Bool(false)) else d.entries[0]
  }

  predicate Supported(c: Clause) {
    !c.Unhandled?
  }

  predicate AllSupported(ws: seq<Clause>) {
    forall i :: 0 <= i < |ws| ==> Supported(ws[i])
  }

  /** The key and value a supported clause leaves in the filter. */
  function Contribution(c: Clause): (string, Value)
    requires Supported(c)
  {
    Head(Translate(c).value)
  }

  function Contributions(ws: seq<Clause>): (r: seq<(string, Value)>)
    requires AllSupported(ws)
    ensures |r| == |ws|
    ensures forall i :: 0 <= i < |ws| ==> r[i] == Contribution(ws[i])
  {
    seq(|ws|, i requires 0 <= i < |ws| => Contribution(ws[i]))
  }

  /**
   * compileWheres: each clause's first pair assigned into one document, so a later
   * clause on the same key replaces an earlier one; an unsupported clause fails.
   */
  function CompileWheres(ws: seq<Clause>): (r: Result<Doc, Error>)
    ensures r.Ok? <==> AllSupported(ws)
    ensures r.Ok? ==> r.value == FromPairs(Contributions(ws))
  {
    if |ws| == 0 then Ok(EmptyDoc)
    else
      var front := ws[..|ws| - 1];
      var last := ws[|ws| - 1];
      SupportedSnoc(ws);
      match CompileWheres(front)
      case Fail(e) => Fail(e)
      case Ok(acc) =>
        if last.Unhandled? then Fail(Unsupported(last.kind))
        else
          ContributionsSnoc(ws);
          FromPairsSnoc(Contributions(front), Contribution(last));
          var pair := Contribution(last);
          Ok(Set(acc, pair.0, pair.1))
  }

  lemma SupportedSnoc(ws: seq<Clause>)
    requires |ws| > 0
    ensures AllSupported(ws) <==> AllSupported(ws[..|ws| - 1]) && Supported(ws[|ws| - 1])
  {
    var front := ws[..|ws| - 1];
    assert forall i :: 0 <= i < |front| ==> front[i] == ws[i];
  }

  lemma ContributionsSnoc(ws: seq<Clause>)
    requires |ws| > 0 && AllSupported(ws)
    ensures AllSupported(ws[..|ws| - 1])
    ensures Contributions(ws) == Contributions(ws[..|ws| - 1]) + [Contribution(ws[|ws| - 1])]
  {
    SupportedSnoc(ws);
    var front := ws[..|ws| - 1];
    assert forall i :: 0 <= i < |front| ==> Contributions(ws)[i] == Contributions(front)[i];
  }

  /** The error names the first unsupported clause. */
  lemma {:induction false} FailsAtFirstUnsupported(ws: seq<Clause>, i: nat)
    requires i < |ws| && ws[i].Unhandled? && AllSupported(ws[..i])
    ensures CompileWheres(ws) == Fail(Unsupported(ws[i].kind))
  {
    var front := ws[..|ws| - 1];
    if i == |ws| - 1 {
      assert front == ws[..i];
    } else {
      assert front[i] == ws[i];
      assert front[..i] == ws[..i];
      FailsAtFirstUnsupported(front, i);
    }
  }

  /** What a filter says about a key: the pair of the last clause that wrote it. */
  lemma WheresKeepLastPerKey(ws: seq<Clause>, k: string)
    requires AllSupported(ws)
    ensures CompileWheres(ws).Ok?
    ensures Lookup(CompileWheres(ws).value, k) == LastValue(Contributions(ws), k)
  {
  }

  /** No clauses, no filter. */
  lemma NoWheresNoFilter()
    ensures CompileWheres([]) == Ok(EmptyDoc)
  {
  }

  /** A raw fragment contributes only its first key; an empty one writes false under "". */
  lemma RawKeepsFirstPairOnly(sql: Doc)
    ensures CompileWheres([Raw(sql)]) == Ok(if |sql.entries| == 0 then Single("", Bool(false)) else Single(sql.entries[0].0, sql.entries[0].1))
  {
    assert Contributions([Raw(sql)]) == [Head(sql)];
    assert [Raw(sql)][..0] == [];
  }

  /** Two clauses on one column: only the later survives in the filter. */
  lemma LaterClauseOverwrites(column: string, first: Clause, second: Clause)
    requires Supported(first) && Supported(second)
    requires Contribution(first).0 == column && Contribution(second).0 == column
    ensures CompileWheres([first, second]) == Ok(Single(column, Contribution(second).1))
  {
    var ws := [first, second];
    assert AllSupported(ws);
    assert CompileWheres(ws) == Ok(FromPairs(Contributions(ws)));
    var p1 := Contribution(first);
    var p2 := Contribution(second);
    assert Contributions(ws) == [p1, p2];
    assert p1 == (column, p1.1) && p2 == (column, p2.1);
    AssignTwice(column, p1.1, p2.1);
  }

  // ---------------------------------------------------------------------------
  // Aggregates, columns, orders, projections, computed fields

  /** The aggregate's columns, with a `*` among them meaning no column. */
  function AggregateColumns(a: Aggregate): seq<string> {
    if "*" in a.columns then [] else a.columns
  }

  /** The accumulator: `{$sum: 1}` for count, `{$fn: "$column"}` otherwise. */
  function CompileAggregate(a: Aggregate): Doc {
    var columns := AggregateColumns(a);
    if a.func == "count" then Single("$sum", Int(1))
    else Single("$" + a.func, Str("$" + (if |columns| > 0 then columns[0] else "")))
  }

  /** The wheres after compileAggregate: count over a column adds whereNotNull on it. */
  function AggregateWheres(a: Aggregate, wheres: seq<Clause>): seq<Clause> {
    var columns := AggregateColumns(a);
    if a.func == "count" && |columns| > 0 then wheres + [NotNull(columns[0])] else wheres
  }

  /** A `*` among the aggregate's columns is the same as no column at all. */
  lemma StarMeansNoColumn(func: string, columns: seq<string>, wheres: seq<Clause>)
    requires "*" in columns
    ensures CompileAggregate(Aggregate(func, columns)) == CompileAggregate(Aggregate(func, []))
    ensures AggregateWheres(Aggregate(func, columns), wheres) == wheres
  {
  }

  /** count(column) filters on the column being non-null, whatever earlier clauses said about it. */
  lemma CountFiltersNonNull(column: string, columns: seq<string>, wheres: seq<Clause>)
    requires AllSupported(wheres) && "*" !in columns && column != "*"
    ensures var a := Aggregate("count", [column] + columns);
      && CompileAggregate(a) == Single("$sum", Int(1))
      && CompileWheres(AggregateWheres(a, wheres)).Ok?
      && Lookup(CompileWheres(AggregateWheres(a, wheres)).value, column) == Some(Object(Single("$ne", Null)))
  {
    var a := Aggregate("count", [column] + columns);
    assert "*" !in a.columns;
    var ws := AggregateWheres(a, wheres);
    assert ws == wheres + [NotNull(column)];
    assert ws[|ws| - 1] == NotNull(column);
    assert forall i :: 0 <= i < |wheres| ==> ws[i] == wheres[i];
    assert AllSupported(ws);
    assert Contributions(ws)[|ws| - 1] == (column, Object(Single("$ne", Null)));
  }

  /** Any other function reads its first column: `{$fn: "$column"}`, and adds no clause. */
  lemma OtherAggregatesReadFirstColumn(func: string, column: string, columns: seq<string>, wheres: seq<Clause>)
    requires func != "count" && "*" !in columns && column != "*"
    ensures CompileAggregate(Aggregate(func, [column] + columns)) == Single("$" + func, Str("$" + column))
    ensures AggregateWheres(Aggregate(func, [column] + columns), wheres) == wheres
  {
  }

  /** One selected column: `x as y` gives y => "$x" (lower-cased), anything else gives column => 1. */
  function ColumnEntry(column: string): (string, Value) {
    var lower := Lower(column);
    match IndexOf(lower, " as ")
    case Some(i) =>
      var rest := lower[i + 4..];
      var alias := match IndexOf(rest, " as ") case Some(j) => rest[..j] case None => rest;
      (alias, Str("$" + lower[..i]))
    case None => (column, Int(1))
  }

  function ColumnEntries(columns: seq<string>): (r: seq<(string, Value)>)
    ensures |r| == |columns|
    ensures forall i :: 0 <= i < |columns| ==> r[i] == ColumnEntry(columns[i])
  {
    seq(|columns|, i requires 0 <= i < |columns| => ColumnEntry(columns[i]))
  }

  function CompileColumns(columns: seq<string>): Doc {
    if "*" in columns then EmptyDoc
    else FromPairs(ColumnEntries(columns))
  }

  /** Selecting `*` anywhere in the list projects nothing. */
  lemma StarSelectsEverything(columns: seq<string>)
    requires "*" in columns
    ensures CompileColumns(columns) == EmptyDoc
  {
  }

  predicate IsPlainColumn(column: string) {
    IndexOf(Lower(column), " as ").None?
  }

  lemma {:induction false} PlainEntries(columns: seq<string>, k: string)
    requires forall i :: 0 <= i < |columns| ==> IsPlainColumn(columns[i])
    ensures LastValue(ColumnEntries(columns), k) == if k in columns then Some(Int(1)) else None
  {
    if |columns| > 0 {
      var front := columns[..|columns| - 1];
      assert ColumnEntries(columns)[..|columns| - 1] == ColumnEntries(front);
      PlainEntries(front, k);
      assert columns == front + [columns[|columns| - 1]];
    }
  }

  /** Plain columns (no `as`, no `*`) are each included with 1, and nothing else is. */
  lemma PlainColumnsIncluded(columns: seq<string>, k: string)
    requires forall i :: 0 <= i < |columns| ==> IsPlainColumn(columns[i])
    requires "*" !in columns
    ensures Lookup(CompileColumns(columns), k) == if k in columns then Some(Int(1)) else None
  {
    PlainEntries(columns, k);
  }

  /**
   * The first ` as ` in `a + " as " + b` is the one after `a` when `a`, followed by a blank, holds none:
   * an earlier match would lie inside `a + " "`, or run into the separator's `a`, which no match can.
   */
  lemma FirstSeparator(a: string, b: string)
    requires IndexOf(a + " ", " as ").None?
    ensures IndexOf(a + " as " + b, " as ") == Some(|a|)
  {
    var text := a + " as " + b;
    assert OccursAt(text, " as ", |a|) by {
      assert text[|a|..|a| + 4] == " as ";
    }
    forall j: nat | j < |a| ensures !OccursAt(text, " as ", j) {
      if j + 4 <= |a| + 1 {
        assert text[j..j + 4] == (a + " ")[j..j + 4];
        assert !OccursAt(a + " ", " as ", j);
      } else {
        assert text[|a| + 1] == 'a';
        assert text[j..j + 4][|a| + 1 - j] == text[|a| + 1];
      }
    }
  }

  /** Lower-casing `original AS alias` lower-cases the three parts separately. */
  lemma LowerAliased(original: string, keyword: string, alias: string)
    requires Lower(keyword) == " as "
    ensures Lower(original + keyword + alias) == Lower(original) + " as " + Lower(alias)
  {
    LowerConcat(original + keyword, alias);
    LowerConcat(original, keyword);
  }

  /** In `a as b`, with no earlier ` as ` and none in `b`, the separator is found once, right after `a`. */
  lemma SeparatorSplits(a: string, b: string)
    requires IndexOf(a + " ", " as ").None? && IndexOf(b, " as ").None?
    ensures var text := a + " as " + b;
      && IndexOf(text, " as ") == Some(|a|)
      && text[..|a|] == a
      && text[|a| + 4..] == b
  {
    FirstSeparator(a, b);
    var text := a + " as " + b;
    assert text[..|a|] == a;
    assert text[|a| + 4..] == b;
  }

  /** A column whose lower-cased form is `a as b` selects b => "$a". */
  lemma SplitColumnEntry(column: string, a: string, b: string)
    requires IndexOf(a + " ", " as ").None? && IndexOf(b, " as ").None?
    requires Lower(column) == a + " as " + b
    ensures ColumnEntry(column) == (b, Str("$" + a))
  {
    SeparatorSplits(a, b);
  }

  /**
   * `original as alias` (any case of `as`) projects alias => "$original", both lower-cased, as long as
   * the separator is the column's only ` as `; blanks elsewhere, as in `first name as fn`, are kept.
   */
  lemma AliasedColumn(original: string, keyword: string, alias: string)
    requires IndexOf(Lower(original) + " ", " as ").None? && IndexOf(Lower(alias), " as ").None?
    requires Lower(keyword) == " as "
    ensures ColumnEntry(original + keyword + alias) == (Lower(alias), Str("$" + Lower(original)))
  {
    LowerAliased(original, keyword, alias);
    SplitColumnEntry(original + keyword + alias, Lower(original), Lower(alias));
  }


  /** A string direction becomes 1 for `asc` in any case and -1 for anything else. */
  function Direction(d: Value): Value {
    if d.Str? then Int(if Lower(d.s) == "asc" then 1 else -1) else d
  }

  function OrderEntry(o: Order): (string, Value) {
    (if o.column == "natural" then "$natural" else o.column, Direction(o.direction))
  }

  function CompileOrders(orders: seq<Order>): Doc {
    FromPairs(seq(|orders|, i requires 0 <= i < |orders| => OrderEntry(orders[i])))
  }

  /** Sort directions: `asc` (any case) is 1, any other string -1, non-strings kept; `natural` sorts on `$natural`. */
  lemma OrderDirections(column: string, direction: string)
    ensures Direction(Str(direction)) == Int(1) <==> Lower(direction) == "asc"
    ensures Direction(Str(direction)) == Int(-1) <==> Lower(direction) != "asc"
    ensures forall v: Value :: !v.Str? ==> Direction(v) == v
    ensures OrderEntry(Order("natural", Str(direction))).0 == "$natural"
    ensures column != "natural" ==> OrderEntry(Order(column, Str(direction))).0 == column
  {
  }

  function CompileProjections(projections: seq<Projection>): Doc {
    FromPairs(seq(|projections|, i requires 0 <= i < |projections| => (projections[i].column, projections[i].projection)))
  }

  function CompileAddFields(fields: seq<Computed>): Doc {
    FromPairs(seq(|fields|, i requires 0 <= i < |fields| => (fields[i].column, Object(fields[i].expression))))
  }

  /** compileLimit / compileOffset: the `(int)` cast of the stored value. */
  function CompileCount(v: Option<Value>): int {
    if v.Some? then ToInt(v.value) else 0
  }

  /** A limit or offset given as the text of an integer compiles to that integer; none compiles to 0. */
  lemma CountCast(n: int)
    ensures CompileCount(Some(Str(ShowInt(n)))) == n
    ensures CompileCount(Some(Int(n))) == n
    ensures CompileCount(None) == 0
  {
    IntCastOfText(n);
  }

  // ---------------------------------------------------------------------------
  // The pipeline

  datatype Components = Components(
    addFields: Doc,
    columns: Doc,
    wheres: Doc,
    aggregate: Doc,
    projections: Doc,
    orders: Doc,
    offset: int,
    limit: int)

  const StageOrder: seq<string> := ["$addFields", "$project", "$match", "$group", "$project", "$sort", "$skip", "$limit"]

  /** Whether each of the eight components is non-empty, in stage order. */
  function Presence(c: Components): seq<bool> {
    [ |c.addFields.entries| > 0, |c.columns.entries| > 0, |c.wheres.entries| > 0, |c.aggregate.entries| > 0,
      |c.projections.entries| > 0, |c.orders.entries| > 0, c.offset != 0, c.limit != 0 ]
  }

  /** The stage each component would become. */
  function Stages(c: Components): seq<Doc> {
    [ Single("$addFields", Object(c.addFields)),
      Single("$project", Object(c.columns)),
      Single("$match", Object(c.wheres)),
      Single("$group", Object(Doc([("_id", Null), ("aggregate", Object(c.aggregate))]))),
      Single("$project", Object(c.projections)),
      Single("$sort", Object(c.orders)),
      Single("$skip", Int(c.offset)),
      Single("$limit", Int(c.limit)) ]
  }

  /** The elements of `xs` whose flag is set, in order. */
  function Pick<T>(flags: seq<bool>, xs: seq<T>): (r: seq<T>)
    requires |flags| == |xs|
    ensures |r| <= |xs|
  {
    if |xs| == 0 then [] else (if flags[0] then [xs[0]] else []) + Pick(flags[1..], xs[1..])
  }

  function StageName(stage: Doc): string {
    Head(stage).0
  }

  function StageNames(stages: seq<Doc>): (r: seq<string>)
    ensures |r| == |stages|
    ensures forall i :: 0 <= i < |stages| ==> r[i] == StageName(stages[i])
  {
    seq(|stages|, i requires 0 <= i < |stages| => StageName(stages[i]))
  }

  /** `a` is `b` with some elements left out. */
  predicate IsSubsequence<T(==)>(a: seq<T>, b: seq<T>) {
    |a| == 0 || (|b| > 0 && ((a[0] == b[0] && IsSubsequence(a[1..], b[1..])) || IsSubsequence(a, b[1..])))
  }

  lemma {:induction false} PickIsSubsequence<T>(flags: seq<bool>, xs: seq<T>)
    requires |flags| == |xs|
    ensures IsSubsequence(Pick(flags, xs), xs)
  {
    if |xs| > 0 {
      PickIsSubsequence(flags[1..], xs[1..]);
      var rest := Pick(flags[1..], xs[1..]);
      if flags[0] {
        assert Pick(flags, xs) == [xs[0]] + rest;
        assert ([xs[0]] + rest)[1..] == rest;
      } else {
        assert Pick(flags, xs) == rest;
      }
    }
  }

  lemma {:induction false} PickNames(flags: seq<bool>, stages: seq<Doc>)
    requires |flags| == |stages|
    ensures StageNames(Pick(flags, stages)) == Pick(flags, StageNames(stages))
  {
    if |stages| > 0 {
      PickNames(flags[1..], stages[1..]);
      assert StageNames(stages)[1..] == StageNames(stages[1..]);
      var head := if flags[0] then [stages[0]] else [];
      assert StageNames(head + Pick(flags[1..], stages[1..])) == StageNames(head) + StageNames(Pick(flags[1..], stages[1..]));
    }
  }

  lemma {:induction false} PickEmpty<T>(flags: seq<bool>, xs: seq<T>)
    requires |flags| == |xs|
    ensures Pick(flags, xs) == [] <==> forall i :: 0 <= i < |flags| ==> !flags[i]
  {
    if |xs| > 0 {
      PickEmpty(flags[1..], xs[1..]);
      assert forall i :: 1 <= i < |flags| ==> flags[i] == flags[1..][i - 1];
    }
  }

  /** Membership in a pick: an element is kept exactly when some flagged position holds it. */
  lemma {:induction false} PickMember<T>(flags: seq<bool>, xs: seq<T>, x: T)
    requires |flags| == |xs|
    ensures x in Pick(flags, xs) <==> exists i :: 0 <= i < |xs| && flags[i] && xs[i] == x
  {
    if |xs| > 0 {
      PickMember(flags[1..], xs[1..], x);
      if x in Pick(flags[1..], xs[1..]) {
        var i :| 0 <= i < |xs[1..]| && flags[1..][i] && xs[1..][i] == x;
        assert flags[i + 1] && xs[i + 1] == x;
      }
      if exists i :: 0 <= i < |xs| && flags[i] && xs[i] == x {
        var i :| 0 <= i < |xs| && flags[i] && xs[i] == x;
        if i > 0 {
          assert flags[1..][i - 1] && xs[1..][i - 1] == x;
        }
      }
    }
  }

  lemma StageNamesInOrder(c: Components)
    ensures StageNames(Stages(c)) == StageOrder
  {
  }

  /** Two positions holding the same stage hold it for the same component, so their flags agree. */
  lemma SameStageSameFlag(c: Components, i: nat, k: nat)
    requires i < 8 && k < 8 && Stages(c)[i] == Stages(c)[k]
    ensures Presence(c)[i] == Presence(c)[k]
  {
    StageNamesInOrder(c);
    assert StageNames(Stages(c))[i] == StageOrder[i] && StageNames(Stages(c))[k] == StageOrder[k];
    if i != k && {i, k} == {1, 4} {
      assert Single("$project", Object(c.columns)) == Single("$project", Object(c.projections));
      assert c.columns == c.projections;
    }
  }

  lemma NothingPresent(c: Components)
    ensures (forall i :: 0 <= i < |Presence(c)| ==> !Presence(c)[i]) <==>
      (|c.addFields.entries| == 0 && |c.columns.entries| == 0 && |c.wheres.entries| == 0
      && |c.aggregate.entries| == 0 && |c.projections.entries| == 0 && |c.orders.entries| == 0
      && c.offset == 0 && c.limit == 0)
  {
    var f := Presence(c);
    assert f[0] == (|c.addFields.entries| > 0) && f[1] == (|c.columns.entries| > 0);
    assert f[2] == (|c.wheres.entries| > 0) && f[3] == (|c.aggregate.entries| > 0);
    assert f[4] == (|c.projections.entries| > 0) && f[5] == (|c.orders.entries| > 0);
    assert f[6] == (c.offset != 0) && f[7] == (c.limit != 0);
  }

  /** The stages kept for `c`, named in stage order. */
  lemma PipelineInOrder(c: Components)
    ensures IsSubsequence(StageNames(Pick(Presence(c), Stages(c))), StageOrder)
  {
    PickNames(Presence(c), Stages(c));
    StageNamesInOrder(c);
    PickIsSubsequence(Presence(c), StageOrder);
  }

  lemma PipelineEmpty(c: Components)
    ensures Pick(Presence(c), Stages(c)) == [] <==> (|c.addFields.entries| == 0 && |c.columns.entries| == 0
      && |c.wheres.entries| == 0 && |c.aggregate.entries| == 0 && |c.projections.entries| == 0
      && |c.orders.entries| == 0 && c.offset == 0 && c.limit == 0)
  {
    PickEmpty(Presence(c), Stages(c));
    NothingPresent(c);
  }

  lemma PipelineEntries(c: Components)
    ensures forall i :: 0 <= i < |Pick(Presence(c), Stages(c))| ==> |Pick(Presence(c), Stages(c))[i].entries| == 1
  {
    var flags := Presence(c);
    var stages := Stages(c);
    var r := Pick(flags, stages);
    assert forall j :: 0 <= j < |stages| ==> |stages[j].entries| == 1;
    forall i | 0 <= i < |r| ensures |r[i].entries| == 1 {
      assert r[i] in r;
      PickMember(flags, stages, r[i]);
    }
  }

  /**
   * compilePipeline: the stages in the fixed order $addFields, $project, $match,
   * $group, $project, $sort, $skip, $limit, each one only when its component is non-empty.
   */
  function CompilePipeline(c: Components): (r: seq<Doc>)
    ensures |r| <= 8
    ensures IsSubsequence(StageNames(r), StageOrder)
    ensures r == [] <==> (|c.addFields.entries| == 0 && |c.columns.entries| == 0 && |c.wheres.entries| == 0
      && |c.aggregate.entries| == 0 && |c.projections.entries| == 0 && |c.orders.entries| == 0
      && c.offset == 0 && c.limit == 0)
    ensures forall i :: 0 <= i < |r| ==> |r[i].entries| == 1
  {
    PipelineInOrder(c);
    PipelineEmpty(c);
    PipelineEntries(c);
    Pick(Presence(c), Stages(c))
  }

  /**
   * Each stage is in the pipeline exactly when its component is non-empty; the two
   * `$project` stages included, since when they coincide their flags coincide too.
   */
  lemma PipelineStagePresence(c: Components)
    ensures forall k :: 0 <= k < 8 ==> (Stages(c)[k] in CompilePipeline(c) <==> Presence(c)[k])
  {
    forall k | 0 <= k < 8 ensures (Stages(c)[k] in CompilePipeline(c) <==> Presence(c)[k]) {
      StageInPipeline(c, k);
    }
  }

  /** One stage of `PipelineStagePresence`. */
  lemma StageInPipeline(c: Components, k: nat)
    requires k < 8
    ensures Stages(c)[k] in CompilePipeline(c) <==> Presence(c)[k]
  {
    var flags := Presence(c);
    var stages := Stages(c);
    assert CompilePipeline(c) == Pick(flags, stages);
    PickMember(flags, stages, stages[k]);
    if stages[k] in Pick(flags, stages) {
      var i :| 0 <= i < |stages| && flags[i] && stages[i] == stages[k];
      SameStageSameFlag(c, i, k);
    }
  }

  // ---------------------------------------------------------------------------
  // Select

  const DefaultOptions: Doc := Single("typeMap", Object(Single("array", Str("array"))))

  /** The driver options: the query's own when non-empty, else array results as PHP arrays. */
  function SelectOptions(options: Doc): Doc {
    if |options.entries| > 0 then options else DefaultOptions
  }

  /** The wheres compiled for a select, after the aggregate has had its say. */
  function SelectWheres(q: Query): seq<Clause> {
    if q.aggregate.Some? then AggregateWheres(q.aggregate.value, q.wheres) else q.wheres
  }

  predicate HasUnsupportedComponent(q: Query) {
    q.joins || q.groups || q.havings || q.unions || q.lock
  }

  /** The first unsupported construct in component order, after joins and wheres. */
  function LateUnsupported(q: Query): Option<Construct> {
    if q.groups then Some(Groups)
    else if q.havings then Some(Havings)
    else if q.unions then Some(Unions)
    else if q.lock then Some(Lock)
    else None
  }

  function SelectComponents(q: Query, filter: Doc): Components {
    Components(
      CompileAddFields(q.addFields),
      CompileColumns(q.columns),
      filter,
      if q.aggregate.Some? then CompileAggregate(q.aggregate.value) else EmptyDoc,
      CompileProjections(q.projections),
      CompileOrders(q.orders),
      CompileCount(q.offset),
      CompileCount(q.limit))
  }

  /** compileSelect: an aggregate call on the query's collection, or the first unsupported construct. */
  function CompileSelect(q: Query): (r: Result<Unit, Error>)
    ensures r.Fail? <==> HasUnsupportedComponent(q) || !AllSupported(q.wheres)
    ensures r.Ok? ==> r.value.collection == q.from && r.value.statement.AggregateCall?
    ensures r.Ok? ==> |r.value.statement.pipeline| <= 8
    ensures r.Ok? ==> r.value.statement.pipeline == CompilePipeline(SelectComponents(q, CompileWheres(SelectWheres(q)).value))
    ensures r.Ok? ==> r.value.statement.options == SelectOptions(q.options)
  {
    var wheres := SelectWheres(q);
    assert AllSupported(wheres) <==> AllSupported(q.wheres) by {
      if q.aggregate.Some? && wheres != q.wheres {
        assert wheres == q.wheres + [wheres[|wheres| - 1]];
        assert forall i :: 0 <= i < |q.wheres| ==> wheres[i] == q.wheres[i];
      }
    }
    if q.joins then Fail(Unsupported(Joins))
    else
      match CompileWheres(wheres)
      case Fail(e) => Fail(e)
      case Ok(filter) =>
        match LateUnsupported(q)
        case Some(construct) => Fail(Unsupported(construct))
        case None =>
          var pipeline := CompilePipeline(SelectComponents(q, filter));
          Ok(Unit(q.from, AggregateCall(pipeline, SelectOptions(q.options))))
  }

  /** The `$match` stage of a select's components is the filter, present when non-empty. */
  lemma MatchStageOf(q: Query, filter: Doc, pipeline: seq<Doc>)
    requires pipeline == CompilePipeline(SelectComponents(q, filter))
    ensures Single("$match", Object(filter)) in pipeline <==> |filter.entries| > 0
  {
    StageInPipeline(SelectComponents(q, filter), 2);
  }

  /** The `$group` stage of a select's components holds the compiled aggregate. */
  lemma GroupStageOf(q: Query, filter: Doc, pipeline: seq<Doc>)
    requires pipeline == CompilePipeline(SelectComponents(q, filter)) && q.aggregate.Some?
    ensures Single("$group", Object(Doc([("_id", Null), ("aggregate", Object(CompileAggregate(q.aggregate.value)))]))) in pipeline
  {
    var c := SelectComponents(q, filter);
    assert c.aggregate == CompileAggregate(q.aggregate.value);
    assert |c.aggregate.entries| == 1;
    StageInPipeline(c, 3);
    assert Stages(c)[3] == Single("$group", Object(Doc([("_id", Null), ("aggregate", Object(c.aggregate))])));
  }

  /** The compiled filter is the pipeline's `$match` stage, present exactly when the filter is non-empty. */
  lemma SelectMatchStage(q: Query)
    requires CompileSelect(q).Ok?
    ensures var filter := CompileWheres(SelectWheres(q)).value;
      Single("$match", Object(filter)) in CompileSelect(q).value.statement.pipeline <==> |filter.entries| > 0
  {
    MatchStageOf(q, CompileWheres(SelectWheres(q)).value, CompileSelect(q).value.statement.pipeline);
  }

  /** Without options of its own, a select asks for arrays as PHP arrays; otherwise its options are used as given. */
  lemma SelectOptionsDefault(q: Query)
    requires CompileSelect(q).Ok?
    ensures |q.options.entries| == 0 ==>
      Lookup(CompileSelect(q).value.statement.options, "typeMap") == Some(Object(Single("array", Str("array"))))
    ensures |q.options.entries| > 0 ==> CompileSelect(q).value.statement.options == q.options
  {
  }

  /** An aggregate becomes the pipeline's `$group` stage, grouping everything under a null `_id`. */
  lemma SelectGroupStage(q: Query)
    requires CompileSelect(q).Ok? && q.aggregate.Some?
    ensures Single("$group", Object(Doc([("_id", Null), ("aggregate", Object(CompileAggregate(q.aggregate.value)))])))
      in CompileSelect(q).value.statement.pipeline
  {
    GroupStageOf(q, CompileWheres(SelectWheres(q)).value, CompileSelect(q).value.statement.pipeline);
  }

  /** count(column) selects through a `$match` that requires the column non-null, and groups with `$sum: 1`. */
  lemma CountSelectMatchesNonNull(q: Query, column: string, columns: seq<string>)
    requires q.aggregate == Some(Aggregate("count", [column] + columns))
    requires "*" !in columns && column != "*"
    requires AllSupported(q.wheres) && !HasUnsupportedComponent(q)
    ensures CompileSelect(q).Ok?
    ensures var filter := CompileWheres(SelectWheres(q)).value;
      && Single("$match", Object(filter)) in CompileSelect(q).value.statement.pipeline
      && Lookup(filter, column) == Some(Object(Single("$ne", Null)))
    ensures Single("$group", Object(Doc([("_id", Null), ("aggregate", Object(Single("$sum", Int(1))))])))
      in CompileSelect(q).value.statement.pipeline
  {
    CountFiltersNonNull(column, columns, q.wheres);
    var filter := CompileWheres(SelectWheres(q)).value;
    assert |filter.entries| > 0 by {
      assert column in Keys(filter);
    }
    SelectMatchStage(q);
    SelectGroupStage(q);
  }

  /** Components fail in the framework's order: joins before wheres, wheres before groups, havings, unions, lock. */
  lemma SelectFailsInComponentOrder(q: Query)
    ensures q.joins ==> CompileSelect(q) == Fail(Unsupported(Joins))
    ensures !q.joins && AllSupported(q.wheres) && q.groups ==> CompileSelect(q) == Fail(Unsupported(Groups))
    ensures !q.joins && AllSupported(q.wheres) && !q.groups && !q.havings && !q.unions && q.lock
      ==> CompileSelect(q) == Fail(Unsupported(Lock))
  {
  }

  /** Without joins, the first unsupported where clause is the error. */
  lemma SelectFailsAtFirstUnsupportedClause(q: Query, i: nat)
    requires !q.joins
    requires i < |q.wheres| && q.wheres[i].Unhandled? && AllSupported(q.wheres[..i])
    ensures CompileSelect(q) == Fail(Unsupported(q.wheres[i].kind))
  {
    var ws := SelectWheres(q);
    assert ws[i] == q.wheres[i] && ws[..i] == q.wheres[..i];
    FailsAtFirstUnsupported(ws, i);
  }

  /** compileExists has no translation. */
  function CompileExists(q: Query): (r: Result<Unit, Error>)
    ensures r.Fail? && r.error.construct == ExistsQuery
  {
    Fail(Unsupported(ExistsQuery))
  }

  /** compileRandom has no translation. */
  function CompileRandom(seed: Value): (r: Result<Doc, Error>)
    ensures r.Fail? && r.error.construct == RandomOrder
  {
    Fail(Unsupported(RandomOrder))
  }

  // ---------------------------------------------------------------------------
  // Statements

  /** insertMany of the given documents. */
  function CompileInsert(q: Query, values: seq<Doc>): (r: Unit)
    ensures r.collection == q.from && r.statement == InsertMany(values)
  {
    Unit(q.from, InsertMany(values))
  }

  /** insertOne of the given document; the unit yields the generated id. */
  function CompileInsertGetId(q: Query, values: Doc): (r: Unit)
    ensures r.collection == q.from && r.statement == InsertOne(values)
  {
    Unit(q.from, InsertOne(values))
  }

  /** The update document: the values themselves when their first key is an operator, else under `$set`. */
  function UpdateDocument(values: Doc): (r: Doc)
    ensures |r.entries| > 0 && StartsWith(r.entries[0].0, "$")
    ensures r == values || r == Single("$set", Object(values))
  {
    if |values.entries| > 0 && StartsWith(values.entries[0].0, "$") then values
    else Single("$set", Object(values))
  }

  /** Field values without an operator are set, not used as a replacement document. */
  lemma PlainValuesAreSet(values: Doc)
    requires |values.entries| == 0 || !StartsWith(values.entries[0].0, "$")
    ensures Lookup(UpdateDocument(values), "$set") == Some(Object(values))
    ensures Keys(UpdateDocument(values)) == ["$set"]
  {
  }

  /** An update that already starts with an operator is passed unchanged. */
  lemma OperatorValuesKept(values: Doc)
    requires |values.entries| > 0 && StartsWith(values.entries[0].0, "$")
    ensures UpdateDocument(values) == values
  {
  }

  function CompileUpdate(q: Query, values: Doc): (r: Result<Unit, Error>)
    ensures r.Ok? <==> AllSupported(q.wheres)
    ensures r.Ok? ==> r == Ok(Unit(q.from, UpdateMany(CompileWheres(q.wheres).value, UpdateDocument(values))))
  {
    var filter :- CompileWheres(q.wheres);
    Ok(Unit(q.from, UpdateMany(filter, UpdateDocument(values))))
  }

  function CompileDelete(q: Query): (r: Result<Unit, Error>)
    ensures r.Ok? <==> AllSupported(q.wheres)
    ensures r.Ok? ==> r.value.collection == q.from && r.value.statement == DeleteMany(CompileWheres(q.wheres).value)
  {
    var filter :- CompileWheres(q.wheres);
    Ok(Unit(q.from, DeleteMany(filter)))
  }

  function CompileTruncate(q: Query): (r: Unit)
    ensures r.collection == q.from && r.statement.Drop?
  {
    Unit(q.from, Drop)
  }

  /** Truncation drops the collection whatever else the query holds. */
  lemma TruncateIgnoresQueryState(q1: Query, q2: Query)
    requires q1.from == q2.from
    ensures CompileTruncate(q1) == CompileTruncate(q2)
  {
  }
}

=== FILE: like.dfy ===
/**
 * Rewriting an SQL `like` pattern into a case-insensitive regular expression
 * (MongoGrammar::whereBasic): the literal is escaped with `preg_quote($v, '#')`,
 * every `%` wildcard becomes `.*`, and the result is anchored at whichever end
 * does not carry a `%`.
 *
 * `WildcardsAsWritten` is the replacement `preg_replace('#(^|[^\\\\])%#', '$1.*', ...)`
 * performs: it consumes the character before each `%`, so of two adjacent `%`
 * the second is left as a literal. `Wildcards` replaces every `%` that is not
 * escaped, which is what the rewrite is for; `Pattern` uses it.
 */
module Like {
  import opened Strings

  /** The characters `preg_quote` escapes with a backslash (with `#` as delimiter). */
  predicate IsRegexSpecial(c: char) {
    match c
    case '.' | '\\' | '+' | '*' | '?' | '[' | '^' | ']' | '$' | '(' | ')' | '{' | '}' => true
    case '=' | '!' | '<' | '>' | '|' | ':' | '-' | '#' => true
    case _ => false
  }

  function QuoteChar(c: char): string {
    if c == '\0' then "\\000"
    else if IsRegexSpecial(c) then ['\\', c]
    else [c]
  }

  /** `preg_quote(s, '#')`. */
  function Quote(s: string): string {
    if |s| == 0 then "" else QuoteChar(s[0]) + Quote(s[1..])
  }

  /** Every unescaped `%` becomes `.*`; `escaped` says whether the previous character was a backslash. */
  function Wildcards(s: string, escaped: bool): string {
    if |s| == 0 then ""
    else if s[0] == '%' && !escaped then ".*" + Wildcards(s[1..], false)
    else [s[0]] + Wildcards(s[1..], s[0] == '\\')
  }

  /**
   * The left-to-right, non-overlapping matching of `(^|[^\\])%`: at the start a `%`
   * matches alone; elsewhere a match is a non-backslash character followed by `%`.
   */
  function WildcardsAsWritten(s: string, atStart: bool): string {
    if |s| == 0 then ""
    else if atStart && s[0] == '%' then ".*" + WildcardsAsWritten(s[1..], false)
    else if |s| >= 2 && s[0] != '\\' && s[1] == '%' then [s[0]] + ".*" + WildcardsAsWritten(s[2..], false)
    else [s[0]] + WildcardsAsWritten(s[1..], false)
  }

  function Anchor(value: string, body: string): string {
    (if StartsWith(value, "%") then "" else "^") + body + (if EndsWith(value, "%") then "" else "$")
  }

  /** The regular expression a `like` value compiles to. */
  function Pattern(value: string): string {
    Anchor(value, Wildcards(Quote(value), false))
  }

  function PatternAsWritten(value: string): string {
    Anchor(value, WildcardsAsWritten(Quote(value), true))
  }

  // ---------------------------------------------------------------------------
  // The rewrite that is used

  /** The state `Wildcards` is in after reading `a`. */
  function EscapedAfter(a: string, escaped: bool): bool {
    if |a| == 0 then escaped else a[|a| - 1] == '\\'
  }

  /** One step of the rewrite: the first character, then the rest in the state it leaves. */
  lemma WildcardsCons(c: char, s: string, escaped: bool)
    ensures Wildcards([c] + s, escaped) == (if c == '%' && !escaped then ".*" else [c]) + Wildcards(s, c == '\\')
  {
    assert ([c] + s)[1..] == s;
  }

  /** A non-empty `a` is its first character then the rest, also inside `a + b`. */
  lemma ConsSplit(a: string, b: string)
    requires |a| > 0
    ensures a == [a[0]] + a[1..]
    ensures a + b == [a[0]] + (a[1..] + b)
    ensures EscapedAfter(a[1..], a[0] == '\\') == EscapedAfter(a, false)
    ensures EscapedAfter(a[1..], a[0] == '\\') == EscapedAfter(a, true)
  {
    if |a| > 1 {
      assert a[1..][|a| - 2] == a[|a| - 1];
    }
  }

  lemma {:induction false} WildcardsConcat(a: string, b: string, escaped: bool)
    ensures Wildcards(a + b, escaped) == Wildcards(a, escaped) + Wildcards(b, EscapedAfter(a, escaped))
  {
    if |a| == 0 {
      assert a + b == b;
    } else {
      var c, rest := a[0], a[1..];
      var head := if c == '%' && !escaped then ".*" else [c];
      ConsSplit(a, b);
      WildcardsCons(c, rest, escaped);
      WildcardsCons(c, rest + b, escaped);
      WildcardsConcat(rest, b, c == '\\');
      assert head + (Wildcards(rest, c == '\\') + Wildcards(b, EscapedAfter(a, escaped)))
        == (head + Wildcards(rest, c == '\\')) + Wildcards(b, EscapedAfter(a, escaped));
    }
  }

  /**
   * No `%` survives the rewrite unless a backslash stands right before it
   * (or it is the first character and the text before it ended in a backslash).
   */
  predicate PercentsEscaped(r: string, escaped: bool) {
    forall i :: 0 <= i < |r| && r[i] == '%' ==> (i == 0 && escaped) || (i > 0 && r[i - 1] == '\\')
  }

  lemma {:induction false} WildcardsLeaveNoBarePercent(s: string, escaped: bool)
    ensures PercentsEscaped(Wildcards(s, escaped), escaped)
  {
    if |s| > 0 {
      var r := Wildcards(s, escaped);
      var esc' := if s[0] == '%' && !escaped then false else s[0] == '\\';
      var t := Wildcards(s[1..], esc');
      var head := if s[0] == '%' && !escaped then ".*" else [s[0]];
      assert r == head + t;
      WildcardsLeaveNoBarePercent(s[1..], esc');
      assert PercentsEscaped(t, esc');
      forall i | 0 <= i < |r| && r[i] == '%'
        ensures (i == 0 && escaped) || (i > 0 && r[i - 1] == '\\')
      {
        if i >= |head| {
          var j := i - |head|;
          assert t[j] == '%';
          assert (j == 0 && esc') || (j > 0 && t[j - 1] == '\\');
          if j == 0 {
            assert esc';
            assert r[i - 1] == s[0];
          } else {
            assert t[j - 1] == '\\';
            assert r[i - 1] == t[j - 1];
          }
        }
      }
    }
  }

  // ---------------------------------------------------------------------------
  // The rewrite as written, and where it departs from the one above

  /** Of `%%` the rewrite as written turns only the first `%` into `.*`; the pattern then demands a literal `%`. */
  lemma DoublePercentAsWritten()
    ensures PatternAsWritten("%%") == ".*%"
    ensures Pattern("%%") == ".*.*"
  {
    assert Quote("%%") == "%%" by {
      assert Quote("%") == "%";
    }
    assert WildcardsAsWritten("%", false) == "%";
    assert Wildcards("%", false) == ".*";
  }

  /** No two adjacent `%`. */
  predicate NoDoublePercent(s: string) {
    forall i :: 0 <= i < |s| - 1 ==> !(s[i] == '%' && s[i + 1] == '%')
  }

  /** Without two adjacent `%` the rewrite as written and the intended one agree. */
  lemma {:induction false} AsWrittenAgrees(s: string, atStart: bool, escaped: bool)
    requires NoDoublePercent(s)
    requires |s| > 0 && s[0] == '%' ==> (atStart <==> !escaped)
    ensures WildcardsAsWritten(s, atStart) == Wildcards(s, escaped)
  {
    if |s| > 0 {
      assert NoDoublePercent(s[1..]) by {
        forall i | 0 <= i < |s[1..]| - 1 ensures !(s[1..][i] == '%' && s[1..][i + 1] == '%') {
          assert s[1..][i] == s[i + 1] && s[1..][i + 1] == s[i + 2];
        }
      }
      if atStart && s[0] == '%' {
        AsWrittenAgrees(s[1..], false, false);
      } else if |s| >= 2 && s[0] != '\\' && s[1] == '%' {
        assert s[0] != '%';
        var t := s[2..];
        assert NoDoublePercent(t) by {
          forall i | 0 <= i < |t| - 1 ensures !(t[i] == '%' && t[i + 1] == '%') {
            assert t[i] == s[i + 2] && t[i + 1] == s[i + 3];
          }
        }
        assert |t| > 0 ==> t[0] != '%' by {
          if |t| > 0 { assert t[0] == s[2]; }
        }
        AsWrittenAgrees(t, false, false);
        assert s[1..][1..] == t;
        assert Wildcards(s[1..], false) == ".*" + Wildcards(t, false);
      } else {
        AsWrittenAgrees(s[1..], false, s[0] == '\\');
      }
    }
  }

  // ---------------------------------------------------------------------------
  // Escaping

  lemma {:induction false} QuoteConcat(a: string, b: string)
    ensures Quote(a + b) == Quote(a) + Quote(b)
  {
    if |a| == 0 {
      assert a + b == b;
    } else {
      assert (a + b)[0] == a[0];
      assert (a + b)[1..] == a[1..] + b;
      QuoteConcat(a[1..], b);
    }
  }

  /** Text with no wildcard, no regular-expression metacharacter and no NUL. */
  predicate Plain(x: string) {
    forall i :: 0 <= i < |x| ==> x[i] != '%' && x[i] != '\0' && !IsRegexSpecial(x[i])
  }

  lemma {:induction false} PlainUnchanged(x: string, escaped: bool)
    requires Plain(x)
    ensures Quote(x) == x
    ensures Wildcards(x, escaped) == x
    ensures |x| > 0 ==> !EscapedAfter(x, escaped)
  {
    if |x| > 0 {
      assert x[|x| - 1] != '\\' by {
        assert !IsRegexSpecial(x[|x| - 1]);
      }
      assert !IsRegexSpecial(x[0]);
      assert Plain(x[1..]) by {
        forall i | 0 <= i < |x[1..]| ensures x[1..][i] != '%' && x[1..][i] != '\0' && !IsRegexSpecial(x[1..][i]) {
          assert x[1..][i] == x[i + 1];
        }
      }
      PlainUnchanged(x[1..], x[0] == '\\');
      assert x == [x[0]] + x[1..];
    }
  }

  // ---------------------------------------------------------------------------
  // What the compiled pattern means

  lemma WildcardsStartWithDot(s: string)
    requires |s| > 0 && s[0] == '%'
    ensures StartsWith(Wildcards(s, false), ".")
  {
  }

  lemma {:induction false} WildcardsEndNotDollar(s: string, escaped: bool)
    requires |s| > 0 && s[|s| - 1] == '%'
    ensures var r := Wildcards(s, escaped); |r| > 0 && r[|r| - 1] != '$'
  {
    var a := s[..|s| - 1];
    assert s == a + "%";
    WildcardsConcat(a, "%", escaped);
  }

  lemma QuoteCharEnds(c: char)
    ensures var q := QuoteChar(c); |q| > 0 && (q[0] == '%' <==> c == '%') && (q[|q| - 1] == '%' <==> c == '%')
  {
  }

  lemma QuotePreservesStart(v: string)
    ensures StartsWith(v, "%") <==> (|Quote(v)| > 0 && Quote(v)[0] == '%')
  {
    if |v| > 0 {
      assert Quote(v) == QuoteChar(v[0]) + Quote(v[1..]);
      QuoteCharEnds(v[0]);
    }
  }

  lemma QuotePreservesEnd(v: string)
    ensures EndsWith(v, "%") <==> (|Quote(v)| > 0 && Quote(v)[|Quote(v)| - 1] == '%')
  {
    if |v| > 0 {
      var a := v[..|v| - 1];
      var c := v[|v| - 1];
      assert v == a + [c];
      QuoteConcat(a, [c]);
      assert Quote([c]) == QuoteChar(c) by {
        assert [c][1..] == "";
      }
      QuoteCharEnds(c);
      var q := QuoteChar(c);
      assert Quote(v) == Quote(a) + q;
      assert Quote(v)[|Quote(v)| - 1] == q[|q| - 1];
    }
  }

  /** The pattern starts with `^` exactly when the value does not start with `%`. */
  lemma AnchoredAtStart(value: string)
    ensures StartsWith(Pattern(value), "^") <==> !StartsWith(value, "%")
  {
    QuotePreservesStart(value);
    var body := Wildcards(Quote(value), false);
    if StartsWith(value, "%") {
      WildcardsStartWithDot(Quote(value));
      var suffix := if EndsWith(value, "%") then "" else "$";
      assert Pattern(value) == body + suffix;
      assert Pattern(value)[0] == body[0] == '.';
    } else {
      assert Pattern(value) == "^" + (body + (if EndsWith(value, "%") then "" else "$"));
    }
  }

  /** The pattern ends with `$` exactly when the value does not end with `%`. */
  lemma AnchoredAtEnd(value: string)
    ensures EndsWith(Pattern(value), "$") <==> !EndsWith(value, "%")
  {
    QuotePreservesEnd(value);
    var body := Wildcards(Quote(value), false);
    var prefix := if StartsWith(value, "%") then "" else "^";
    if EndsWith(value, "%") {
      WildcardsEndNotDollar(Quote(value), false);
      assert Pattern(value) == prefix + body;
      assert Pattern(value)[|Pattern(value)| - 1] == body[|body| - 1];
    } else {
      assert Pattern(value) == (prefix + body) + "$";
    }
  }

  /** `like 'x'` on plain text is an exact match: `^x$`. */
  lemma ExactLike(x: string)
    requires Plain(x)
    ensures Pattern(x) == "^" + x + "$"
  {
    PlainUnchanged(x, false);
  }

  /** The quoted, rewritten `%` on its own. */
  lemma PercentAlone(escaped: bool)
    ensures Quote("%") == "%"
    ensures !escaped ==> Wildcards("%", escaped) == ".*"
  {
    assert "%"[1..] == "";
  }

  /** `like 'x%'` on plain text is a prefix match: `^x.*`. */
  lemma PrefixLike(x: string)
    requires Plain(x) && |x| > 0
    ensures Pattern(x + "%") == "^" + x + ".*"
  {
    var v := x + "%";
    PlainUnchanged(x, false);
    PercentAlone(false);
    QuoteConcat(x, "%");
    assert Quote(v) == v;
    WildcardsConcat(x, "%", false);
    assert Wildcards(v, false) == x + ".*";
    assert !StartsWith(v, "%") by {
      assert v[0] == x[0];
    }
    assert EndsWith(v, "%");
    assert Pattern(v) == "^" + (x + ".*") + "";
  }

  /** `like '%x%'` on plain text is a containment match: `.*x.*`. */
  lemma ContainsLike(x: string)
    requires Plain(x) && |x| > 0
    ensures Pattern("%" + x + "%") == ".*" + x + ".*"
  {
    var v := "%" + x + "%";
    PlainUnchanged(x, false);
    PercentAlone(false);
    QuoteConcat("%", x);
    QuoteConcat("%" + x, "%");
    assert Quote(v) == v;
    WildcardsConcat("%", x, false);
    assert EscapedAfter("%", false) == false;
    assert Wildcards("%" + x, false) == ".*" + x;
    WildcardsConcat("%" + x, "%", false);
    assert EscapedAfter("%" + x, false) == false by {
      assert ("%" + x)[|x|] == x[|x| - 1];
    }
    assert Wildcards(v, false) == ".*" + x + ".*";
    assert StartsWith(v, "%") && EndsWith(v, "%");
    assert Pattern(v) == "" + (".*" + x + ".*") + "";
  }
}

=== FILE: matching.dfy ===
/**
 * A reference reading of the filters the grammar emits: when a stored document
 * matches a filter, as MongoDB evaluates the operators used here (`$gt`, `$gte`,
 * `$lt`, `$lte` on integers, `$ne`, `$in`, `$nin`, equality, and a top-level
 * `$or` of field conditions). A missing field reads as null. It gives the
 * clause translations a meaning to be checked against.
 */
module Matching {
  import opened Wrappers
  import opened Strings
  import opened Documents
  import opened Queries
  import opened Grammar

  /** The value a stored document holds under a field; missing reads as null. */
  function FieldOf(row: Doc, field: string): Value {
    Get(row, field)
  }

  /** One operator applied to a field value. Ordering is defined on integers only. */
  predicate OperatorHolds(op: string, arg: Value, v: Value) {
    if op == "$gt" then v.Int? && arg.Int? && v.i > arg.i
    else if op == "$gte" then v.Int? && arg.Int? && v.i >= arg.i
    else if op == "$lt" then v.Int? && arg.Int? && v.i < arg.i
    else if op == "$lte" then v.Int? && arg.Int? && v.i <= arg.i
    else if op == "$ne" then v != arg
    else if op == "$in" then arg.List? && v in arg.items
    else if op == "$nin" then arg.List? && v !in arg.items
    else false
  }

  /** A document whose keys are all operators is a set of conditions, not a literal. */
  predicate IsOperatorDoc(d: Doc) {
    |d.entries| > 0 && forall i :: 0 <= i < |d.entries| ==> StartsWith(d.entries[i].0, "$")
  }

  /** What a filter entry demands of its field's value. */
  predicate ConditionHolds(condition: Value, v: Value) {
    if condition.Object? && IsOperatorDoc(condition.doc) then
      forall i :: 0 <= i < |condition.doc.entries| ==>
        OperatorHolds(condition.doc.entries[i].0, condition.doc.entries[i].1, v)
    else v == condition
  }

  /** A filter made of field conditions only. */
  predicate FieldsMatch(filter: Doc, row: Doc) {
    forall i :: 0 <= i < |filter.entries| ==>
      !StartsWith(filter.entries[i].0, "$") && ConditionHolds(filter.entries[i].1, FieldOf(row, filter.entries[i].0))
  }

  /** One top-level entry: `$or` over field-condition documents, or a field condition. */
  predicate EntryHolds(entry: (string, Value), row: Doc) {
    if entry.0 == "$or" then
      entry.1.List? && exists j :: 0 <= j < |entry.1.items| && entry.1.items[j].Object? && FieldsMatch(entry.1.items[j].doc, row)
    else !StartsWith(entry.0, "$") && ConditionHolds(entry.1, FieldOf(row, entry.0))
  }

  /** A document matches a filter when every top-level entry holds. */
  predicate Matches(filter: Doc, row: Doc) {
    forall i :: 0 <= i < |filter.entries| ==> EntryHolds(filter.entries[i], row)
  }

  /** A filter holding the pairs `ps` matches when each of them holds. */
  lemma MatchesEveryEntry(filter: Doc, ps: seq<(string, Value)>, row: Doc)
    requires filter.entries == ps
    ensures Matches(filter, row) <==> forall i :: 0 <= i < |ps| ==> EntryHolds(ps[i], row)
  {
  }

  /** A key naming a document field rather than an operator. */
  predicate IsFieldName(k: string) {
    !StartsWith(k, "$")
  }

  /** A one-entry condition document on a field. */
  lemma FieldsMatchSingle(column: string, condition: Value, row: Doc)
    requires IsFieldName(column)
    ensures FieldsMatch(Single(column, condition), row) <==> ConditionHolds(condition, FieldOf(row, column))
  {
    assert Single(column, condition).entries[0] == (column, condition);
  }

  /** A one-operator condition. */
  lemma ConditionSingle(op: string, arg: Value, v: Value)
    requires StartsWith(op, "$")
    ensures ConditionHolds(Object(Single(op, arg)), v) <==> OperatorHolds(op, arg, v)
  {
    assert Single(op, arg).entries[0] == (op, arg);
    assert IsOperatorDoc(Single(op, arg));
  }

  lemma MatchesSingle(k: string, v: Value, row: Doc)
    ensures Matches(Single(k, v), row) <==> EntryHolds((k, v), row)
  {
    assert Single(k, v).entries[0] == (k, v);
  }

  /** Single-operator conditions on a named field. */
  lemma OperatorCondition(column: string, op: string, arg: Value, row: Doc)
    requires IsFieldName(column)
    requires StartsWith(op, "$")
    ensures Matches(Single(column, Object(Single(op, arg))), row) <==> OperatorHolds(op, arg, FieldOf(row, column))
  {
    MatchesSingle(column, Object(Single(op, arg)), row);
    ConditionSingle(op, arg, FieldOf(row, column));
    assert column != "$or";
  }

  // ---------------------------------------------------------------------------
  // What each translated clause selects

  /** The closed range as a condition. */
  lemma RangeCondition(lo: int, hi: int, v: Value)
    ensures ConditionHolds(Object(Doc([("$gte", Int(lo)), ("$lte", Int(hi))])), v) <==> v.Int? && lo <= v.i <= hi
  {
    var range := Doc([("$gte", Int(lo)), ("$lte", Int(hi))]);
    assert StartsWith("$gte", "$") && StartsWith("$lte", "$");
    assert range.entries[0] == ("$gte", Int(lo)) && range.entries[1] == ("$lte", Int(hi));
    assert IsOperatorDoc(range);
  }

  /** The two open ranges outside `[lo, hi]` as an `$or`. */
  lemma OutsideCondition(column: string, lo: int, hi: int, row: Doc)
    requires IsFieldName(column)
    ensures var below := Object(Single(column, Object(Single("$lt", Int(lo)))));
      var above := Object(Single(column, Object(Single("$gt", Int(hi)))));
      var v := FieldOf(row, column);
      EntryHolds(("$or", List([below, above])), row) <==> v.Int? && (v.i < lo || v.i > hi)
  {
    var below := Object(Single(column, Object(Single("$lt", Int(lo)))));
    var above := Object(Single(column, Object(Single("$gt", Int(hi)))));
    var v := FieldOf(row, column);
    assert StartsWith("$lt", "$") && StartsWith("$gt", "$");
    FieldsMatchSingle(column, Object(Single("$lt", Int(lo))), row);
    FieldsMatchSingle(column, Object(Single("$gt", Int(hi))), row);
    ConditionSingle("$lt", Int(lo), v);
    ConditionSingle("$gt", Int(hi), v);
    assert [below, above][0] == below && [below, above][1] == above;
  }

  /** `whereBetween` selects values in the closed range; `whereNotBetween` the integers outside it. */
  lemma BetweenSelectsRange(column: string, lo: int, hi: int, row: Doc)
    requires IsFieldName(column)
    requires FieldOf(row, column).Int?
    ensures Matches(WhereBetween(column, [Int(lo), Int(hi)], false), row) <==> lo <= FieldOf(row, column).i <= hi
    ensures Matches(WhereBetween(column, [Int(lo), Int(hi)], true), row) <==> !(lo <= FieldOf(row, column).i <= hi)
  {
    var range := Doc([("$gte", Int(lo)), ("$lte", Int(hi))]);
    MatchesSingle(column, Object(range), row);
    assert column != "$or";
    RangeCondition(lo, hi, FieldOf(row, column));
    var below := Object(Single(column, Object(Single("$lt", Int(lo)))));
    var above := Object(Single(column, Object(Single("$gt", Int(hi)))));
    MatchesSingle("$or", List([below, above]), row);
    OutsideCondition(column, lo, hi, row);
  }

  /** A document without the field is in neither the range nor its complement. */
  lemma BetweenSkipsMissingField(column: string, lo: int, hi: int, row: Doc)
    requires IsFieldName(column)
    requires FieldOf(row, column) == Null
    ensures !Matches(WhereBetween(column, [Int(lo), Int(hi)], false), row)
    ensures !Matches(WhereBetween(column, [Int(lo), Int(hi)], true), row)
  {
    var range := Doc([("$gte", Int(lo)), ("$lte", Int(hi))]);
    MatchesSingle(column, Object(range), row);
    assert column != "$or";
    RangeCondition(lo, hi, FieldOf(row, column));
    var below := Object(Single(column, Object(Single("$lt", Int(lo)))));
    var above := Object(Single(column, Object(Single("$gt", Int(hi)))));
    MatchesSingle("$or", List([below, above]), row);
    OutsideCondition(column, lo, hi, row);
  }

  /** `whereNull` and `whereNotNull` split every document between them; a missing field counts as null. */
  lemma NullAndNotNullPartition(column: string, row: Doc)
    requires IsFieldName(column)
    ensures Matches(WhereNull(column), row) <==> FieldOf(row, column) == Null
    ensures Matches(WhereNotNull(column), row) <==> !Matches(WhereNull(column), row)
  {
    MatchesSingle(column, Null, row);
    assert column != "$or";
    OperatorCondition(column, "$ne", Null, row);
    assert StartsWith("$ne", "$");
  }

  /**
   * `whereIn` selects the listed values and `whereNotIn` the rest; an empty list selects nothing, resp.
   * everything. A regular expression in the list is matched as a pattern by MongoDB, so none is allowed here.
   */
  lemma InAndNotInPartition(column: string, values: seq<Value>, row: Doc)
    requires IsFieldName(column)
    requires forall v :: v in values ==> !v.Regex?
    ensures Matches(WhereIn(column, values), row) <==> FieldOf(row, column) in values
    ensures Matches(WhereNotIn(column, values), row) <==> FieldOf(row, column) !in values
    ensures values == [] ==> !Matches(WhereIn(column, values), row) && Matches(WhereNotIn(column, values), row)
  {
    OperatorCondition(column, "$in", List(values), row);
    OperatorCondition(column, "$nin", List(values), row);
    assert StartsWith("$in", "$") && StartsWith("$nin", "$");
  }

  /**
   * An equality on a literal value selects exactly the documents holding that value. An embedded
   * document is a literal when its first key is not an operator; a regular expression is not a
   * literal to MongoDB, which matches it against string fields, so it is excluded here.
   */
  lemma EqualitySelectsValue(column: string, value: Value, row: Doc)
    requires IsFieldName(column)
    requires !value.Regex?
    requires !(value.Object? && |value.doc.entries| > 0 && StartsWith(value.doc.entries[0].0, "$"))
    ensures Matches(WhereBasic(column, "=", value), row) <==> FieldOf(row, column) == value
  {
    EqualityIsBare(column, value);
    MatchesSingle(column, value, row);
    assert column != "$or";
  }

  /** `>` on an integer selects the documents holding a larger integer. */
  lemma GreaterSelectsLarger(column: string, n: int, row: Doc)
    requires IsFieldName(column)
    ensures Matches(WhereBasic(column, ">", Int(n)), row) <==> FieldOf(row, column).Int? && FieldOf(row, column).i > n
  {
    OrderingConverted(column, Int(n));
    OperatorCondition(column, "$gt", Int(n), row);
    assert StartsWith("$gt", "$");
  }

  // ---------------------------------------------------------------------------
  // What the folded filter selects

  /** Every clause the grammar translates, except a raw fragment, yields one pair. */
  lemma TranslationIsOnePair(c: Clause)
    requires Supported(c) && !c.Raw?
    ensures Translate(c).value == Single(Contribution(c).0, Contribution(c).1)
  {
  }

  lemma OnePairMatches(c: Clause, row: Doc)
    requires Supported(c) && !c.Raw?
    ensures Matches(Translate(c).value, row) <==> EntryHolds(Contribution(c), row)
  {
    TranslationIsOnePair(c);
    MatchesSingle(Contribution(c).0, Contribution(c).1, row);
  }

  /** When no two clauses write the same key, the filter selects what every clause selects. */
  lemma DistinctKeysConjoin(ws: seq<Clause>, row: Doc)
    requires AllSupported(ws)
    requires forall i :: 0 <= i < |ws| ==> !ws[i].Raw?
    requires Distinct(KeysOf(Contributions(ws)))
    ensures CompileWheres(ws).Ok?
    ensures Matches(CompileWheres(ws).value, row) <==> forall i :: 0 <= i < |ws| ==> Matches(Translate(ws[i]).value, row)
  {
    FilterMatchesPairs(ws, row);
    EachPairMatches(ws, row);
  }

  /** With distinct keys, the compiled filter holds exactly the clauses' pairs. */
  lemma FilterMatchesPairs(ws: seq<Clause>, row: Doc)
    requires AllSupported(ws)
    requires Distinct(KeysOf(Contributions(ws)))
    ensures CompileWheres(ws).Ok?
    ensures Matches(CompileWheres(ws).value, row)
      <==> (forall i :: 0 <= i < |Contributions(ws)| ==> EntryHolds(Contributions(ws)[i], row))
  {
    AssignDistinct(Contributions(ws));
    MatchesEveryEntry(CompileWheres(ws).value, Contributions(ws), row);
  }

  /** Every translated clause matches exactly when every clause's pair holds. */
  lemma EachPairMatches(ws: seq<Clause>, row: Doc)
    requires AllSupported(ws)
    requires forall i :: 0 <= i < |ws| ==> !ws[i].Raw?
    ensures (forall i :: 0 <= i < |ws| ==> Matches(Translate(ws[i]).value, row))
      <==> (forall i :: 0 <= i < |Contributions(ws)| ==> EntryHolds(Contributions(ws)[i], row))
  {
    forall i | 0 <= i < |ws| ensures Matches(Translate(ws[i]).value, row) <==> EntryHolds(Contributions(ws)[i], row) {
      OnePairMatches(ws[i], row);
    }
  }

  /** The filter a range written as two clauses on one column compiles to. */
  lemma TwoBoundsFilter(column: string, lo: int, hi: int)
    ensures CompileWheres([Basic(column, ">", Int(lo)), Basic(column, "<", Int(hi))])
      == Ok(Single(column, Object(Single("$lt", Int(hi)))))
  {
    var first := Basic(column, ">", Int(lo));
    var second := Basic(column, "<", Int(hi));
    OrderingConverted(column, Int(lo));
    OrderingConverted(column, Int(hi));
    assert Contribution(first) == (column, Object(Single("$gt", Int(lo))));
    assert Contribution(second) == (column, Object(Single("$lt", Int(hi))));
    LaterClauseOverwrites(column, first, second);
  }

  /** A value at or below `lo` fails `> lo`. */
  lemma LowerBoundRejects(column: string, lo: int, x: int)
    requires IsFieldName(column) && x <= lo
    ensures !Matches(WhereBasic(column, ">", Int(lo)), Single(column, Int(x)))
  {
    var row := Single(column, Int(x));
    assert FieldOf(row, column) == Int(x);
    GreaterSelectsLarger(column, lo, row);
  }

  /** A value below `hi` passes `{column: {$lt: hi}}`. */
  lemma UpperBoundAccepts(column: string, hi: int, x: int)
    requires IsFieldName(column) && x < hi
    ensures Matches(Single(column, Object(Single("$lt", Int(hi)))), Single(column, Int(x)))
  {
    var row := Single(column, Int(x));
    assert FieldOf(row, column) == Int(x);
    assert StartsWith("$lt", "$");
    OperatorCondition(column, "$lt", Int(hi), row);
  }

  /**
   * Two clauses on one column are not conjoined: the later replaces the earlier.
   * `c > lo` then `c < hi` compiles to `{c: {$lt: hi}}`, which a document with
   * `c <= lo` satisfies (`age > 10`, `age < 20` selects an age of 5).
   */
  lemma SameColumnNotConjoined(column: string, lo: int, hi: int, x: int)
    requires IsFieldName(column)
    requires x <= lo && x < hi
    ensures var ws := [Basic(column, ">", Int(lo)), Basic(column, "<", Int(hi))];
      && CompileWheres(ws).Ok?
      && Matches(CompileWheres(ws).value, Single(column, Int(x)))
      && !Matches(Translate(ws[0]).value, Single(column, Int(x)))
  {
    var ws := [Basic(column, ">", Int(lo)), Basic(column, "<", Int(hi))];
    TwoBoundsFilter(column, lo, hi);
    assert Translate(ws[0]).value == WhereBasic(column, ">", Int(lo));
    LowerBoundRejects(column, lo, x);
    UpperBoundAccepts(column, hi, x);
  }
}

=== FILE: queries.dfy ===
/**
 * The query description the builder accumulates and the grammar reads: the
 * builder's public properties (`from`, `columns`, `wheres`, `orders`, `aggregate`,
 * `limit`, `offset`, `projections`, `addFields`) and the relational components
 * this store cannot express.
 */
module Queries {
  import opened Wrappers
  import opened Documents

  /** The component a date-based where clause extracts. */
  datatype DatePart = Day | Month | Year | Date | Time

  /** Relational constructs that have no pipeline translation. */
  datatype Construct =
    | Joins
    | WhereInSub
    | WhereNotInSub
    | WhereColumn
    | WhereNested
    | WhereSub
    | WhereExists
    | WhereNotExists
    | Groups
    | Havings
    | Unions
    | Lock
    | RandomOrder
    | ExistsQuery

  /** One entry of `$query->wheres`, tagged by its `type`. */
  datatype Clause =
    | Basic(column: string, operator: string, value: Value)
    | In(column: string, values: seq<Value>)
    | NotIn(column: string, values: seq<Value>)
    | IsNull(column: string)
    | NotNull(column: string)
    | Between(column: string, values: seq<Value>, boolean: string, not: bool)
    | DateBased(part: DatePart, column: string, operator: string, value: Value)
    | Raw(sql: Doc)
      /** A where type the grammar refuses (sub-queries, nested groups, column comparisons, exists). */
    | Unhandled(kind: Construct)

  datatype Order = Order(column: string, direction: Value)

  datatype Aggregate = Aggregate(func: string, columns: seq<string>)

  datatype Projection = Projection(column: string, projection: Value)

  /** One `addField` entry: a computed field and its expression document. */
  datatype Computed = Computed(column: string, expression: Doc)

  datatype Query = Query(
    from: string,
    columns: seq<string>,
    wheres: seq<Clause>,
    orders: seq<Order>,
    aggregate: Option<Aggregate>,
    limit: Option<Value>,
    offset: Option<Value>,
    projections: seq<Projection>,
    addFields: seq<Computed>,
    options: Doc,
    joins: bool,
    groups: bool,
    havings: bool,
    unions: bool,
    lock: bool
  )

  /** A fresh query on a collection: nothing selected, filtered or limited. */
  function NewQuery(collection: string): Query {
    Query(collection, [], [], [], None, None, None, [], [], EmptyDoc, false, false, false, false, false)
  }
}

=== FILE: strings.dfy ===
/** The PHP string functions the grammar and the connector rely on, over `seq<char>`. */
module Strings {
  import opened Wrappers

  predicate StartsWith(s: string, prefix: string) {
    |prefix| <= |s| && s[..|prefix|] == prefix
  }

  predicate EndsWith(s: string, suffix: string) {
    |suffix| <= |s| && s[|s| - |suffix|..] == suffix
  }

  /** PHP `ltrim($s, c)` for one character: every leading `c` is dropped, nothing else. */
  function TrimLeft(s: string, c: char): (r: string)
    ensures |r| <= |s|
    ensures |r| == 0 || r[0] != c
  {
    if |s| > 0 && s[0] == c then TrimLeft(s[1..], c) else s
  }

  /** What `ltrim` removes is a run of `c` at the front, and nothing else. */
  lemma {:induction false} TrimLeftDropsLeading(s: string, c: char)
    ensures var r := TrimLeft(s, c);
      && r == s[|s| - |r|..]
      && forall i :: 0 <= i < |s| - |r| ==> s[i] == c
  {
    if |s| > 0 && s[0] == c {
      TrimLeftDropsLeading(s[1..], c);
      var r := TrimLeft(s, c);
      assert r == TrimLeft(s[1..], c);
      assert s[1..][|s| - 1 - |r|..] == s[|s| - |r|..];
      forall i | 0 <= i < |s| - |r| ensures s[i] == c {
        if i > 0 {
          assert s[i] == s[1..][i - 1];
        }
      }
    }
  }

  /** ASCII lower-casing, as PHP's `strtolower` does in the C locale. */
  function LowerChar(c: char): char {
    if 'A' <= c <= 'Z' then (c as int - 'A' as int + 'a' as int) as char else c
  }

  predicate IsLowerCase(s: string) {
    forall i :: 0 <= i < |s| ==> !('A' <= s[i] <= 'Z')
  }

  function Lower(s: string): (r: string)
    ensures |r| == |s|
    ensures forall i :: 0 <= i < |s| ==> r[i] == LowerChar(s[i])
    ensures IsLowerCase(r)
  {
    if |s| == 0 then "" else [LowerChar(s[0])] + Lower(s[1..])
  }

  lemma LowerConcat(a: string, b: string)
    ensures Lower(a + b) == Lower(a) + Lower(b)
  {
    var l := Lower(a + b);
    var r := Lower(a) + Lower(b);
    forall i | 0 <= i < |l| ensures l[i] == r[i] {
      if i < |a| {
        assert (a + b)[i] == a[i] && r[i] == Lower(a)[i];
      } else {
        assert (a + b)[i] == b[i - |a|] && r[i] == Lower(b)[i - |a|];
      }
    }
  }

  // ---------------------------------------------------------------------------
  // explode / implode on a one-character delimiter

  /** PHP `explode(d, s)`: the pieces of `s` between occurrences of `d`. */
  function Split(s: string, d: char): (r: seq<string>)
    ensures |r| >= 1
    ensures forall i :: 0 <= i < |r| ==> d !in r[i]
  {
    if |s| == 0 then [""]
    else
      var rest := Split(s[1..], d);
      if s[0] == d then [""] + rest
      else [[s[0]] + rest[0]] + rest[1..]
  }

  /** PHP `implode(d, parts)`. */
  function Join(parts: seq<string>, d: char): string {
    if |parts| == 0 then ""
    else if |parts| == 1 then parts[0]
    else parts[0] + [d] + Join(parts[1..], d)
  }

  lemma {:induction false} JoinSplit(s: string, d: char)
    ensures Join(Split(s, d), d) == s
  {
    if |s| > 0 {
      JoinSplit(s[1..], d);
      var rest := Split(s[1..], d);
      if s[0] == d {
        assert Join([""] + rest, d) == "" + [d] + Join(rest, d);
        assert s == [s[0]] + s[1..];
      } else {
        var head := [s[0]] + rest[0];
        if |rest| == 1 {
          assert Join(rest, d) == rest[0];
          assert s == [s[0]] + s[1..];
        } else {
          assert Join(rest, d) == rest[0] + [d] + Join(rest[1..], d);
          assert Join([head] + rest[1..], d) == head + [d] + Join(rest[1..], d);
          assert s == [s[0]] + s[1..];
        }
      }
    }
  }

  /** Splitting a piece that holds no delimiter, followed by anything, glues the piece to the first part. */
  lemma {:induction false} SplitPrefix(a: string, t: string, d: char)
    requires d !in a
    ensures Split(a + t, d) == [a + Split(t, d)[0]] + Split(t, d)[1..]
  {
    if |a| > 0 {
      SplitPrefix(a[1..], t, d);
      var parts := Split(t, d);
      assert (a + t)[1..] == a[1..] + t;
      assert (a + t)[0] == a[0] && a[0] != d;
      var rest := Split(a[1..] + t, d);
      assert rest[0] == a[1..] + parts[0] && rest[1..] == parts[1..];
      assert Split(a + t, d) == [[a[0]] + rest[0]] + rest[1..];
      assert [a[0]] + (a[1..] + parts[0]) == a + parts[0];
    } else {
      assert a + t == t;
      var parts := Split(t, d);
      assert a + parts[0] == parts[0];
      assert parts == [parts[0]] + parts[1..];
    }
  }

  lemma {:induction false} SplitJoin(parts: seq<string>, d: char)
    requires |parts| >= 1
    requires forall i :: 0 <= i < |parts| ==> d !in parts[i]
    ensures Split(Join(parts, d), d) == parts
  {
    if |parts| == 1 {
      SplitPrefix(parts[0], "", d);
      assert Split("", d) == [""];
      assert parts[0] + "" == parts[0];
    } else {
      var t := Join(parts[1..], d);
      SplitJoin(parts[1..], d);
      assert Split([d] + t, d) == [""] + Split(t, d) by {
        assert ([d] + t)[1..] == t;
      }
      SplitPrefix(parts[0], [d] + t, d);
      assert Join(parts, d) == parts[0] + ([d] + t);
      var tail := Split([d] + t, d);
      assert tail[0] == "" && tail[1..] == parts[1..];
      assert parts[0] + "" == parts[0];
      assert parts == [parts[0]] + parts[1..];
    }
  }

  // ---------------------------------------------------------------------------
  // substring search (strpos / stripos)

  /** `pat` occurs in `s` starting at position `j`. */
  predicate OccursAt(s: string, pat: string, j: nat) {
    j + |pat| <= |s| && s[j..j + |pat|] == pat
  }

  /** The first position at or after `from` where `pat` occurs in `s`. */
  function FindFrom(s: string, pat: string, from: nat): (r: Option<nat>)
    requires from <= |s|
    ensures r.Some? ==> from <= r.value && OccursAt(s, pat, r.value)
    ensures r.Some? ==> forall j: nat :: from <= j < r.value ==> !OccursAt(s, pat, j)
    ensures r.None? ==> forall j: nat :: from <= j ==> !OccursAt(s, pat, j)
    decreases |s| - from
  {
    if from + |pat| > |s| then None
    else if s[from..from + |pat|] == pat then Some(from)
    else if from == |s| then None
    else FindFrom(s, pat, from + 1)
  }

  /** PHP `strpos($s, $pat)`: the first occurrence, or none. */
  function IndexOf(s: string, pat: string): (r: Option<nat>)
    ensures r.Some? ==> OccursAt(s, pat, r.value)
    ensures r.Some? ==> forall j: nat :: j < r.value ==> !OccursAt(s, pat, j)
    ensures r.None? ==> forall j: nat :: !OccursAt(s, pat, j)
  {
    FindFrom(s, pat, 0)
  }

  // ---------------------------------------------------------------------------
  // integers as text: PHP's (string) of an int and (int) of a string

  predicate IsDigit(c: char) {
    '0' <= c <= '9'
  }

  function DigitChar(n: nat): (c: char)
    requires n < 10
    ensures IsDigit(c)
  {
    ('0' as int + n) as char
  }

  /** Decimal digits of a natural number, most significant first, no leading zeros. */
  function ShowNat(n: nat): (r: string)
    ensures |r| >= 1
    ensures forall i :: 0 <= i < |r| ==> IsDigit(r[i])
  {
    if n < 10 then [DigitChar(n)] else ShowNat(n / 10) + [DigitChar(n % 10)]
  }

  /** PHP's `(string)` of an integer. */
  function ShowInt(n: int): string {
    if n < 0 then "-" + ShowNat(-n) else ShowNat(n)
  }

  /** The longest prefix of `s` made of decimal digits. */
  function LeadingDigits(s: string): (r: string)
    ensures StartsWith(s, r)
    ensures forall i :: 0 <= i < |r| ==> IsDigit(r[i])
    ensures |r| == |s| || !IsDigit(s[|r|])
  {
    if |s| > 0 && IsDigit(s[0]) then [s[0]] + LeadingDigits(s[1..]) else ""
  }

  function DigitsValue(s: string): nat
    requires forall i :: 0 <= i < |s| ==> IsDigit(s[i])
  {
    if |s| == 0 then 0
    else
      assert IsDigit(s[|s| - 1]);
      DigitsValue(s[..|s| - 1]) * 10 + (s[|s| - 1] as int - '0' as int)
  }

  /** The white-space characters PHP skips in front of a numeric string. */
  predicate IsNumericSpace(c: char) {
    c == ' ' || c == '\t' || c == '\n' || c == '\r' || c == '\U{B}' || c == '\U{C}'
  }

  function SkipSpace(s: string): (r: string)
    ensures |r| <= |s|
    ensures |r| == 0 || !IsNumericSpace(r[0])
  {
    if |s| > 0 && IsNumericSpace(s[0]) then SkipSpace(s[1..]) else s
  }

  /** PHP's `(int)` of a string: leading blanks, an optional sign, then the leading digits (none gives 0). */
  function ParseInt(s: string): int {
    var t := SkipSpace(s);
    if |t| > 0 && t[0] == '-' then 0 - DigitsValue(LeadingDigits(t[1..]))
    else if |t| > 0 && t[0] == '+' then DigitsValue(LeadingDigits(t[1..]))
    else DigitsValue(LeadingDigits(t))
  }

  lemma {:induction false} DigitsOfShowNat(n: nat)
    ensures DigitsValue(ShowNat(n)) == n
  {
    if n >= 10 {
      DigitsOfShowNat(n / 10);
      var s := ShowNat(n);
      assert s[..|s| - 1] == ShowNat(n / 10);
    }
  }

  lemma {:induction false} LeadingDigitsOfDigits(s: string)
    requires forall i :: 0 <= i < |s| ==> IsDigit(s[i])
    ensures LeadingDigits(s) == s
  {
    if |s| > 0 {
      LeadingDigitsOfDigits(s[1..]);
      assert s == [s[0]] + s[1..];
    }
  }

  /** Reading back the text of an integer gives the integer: `(int)(string)$n === $n`. */
  lemma ParseShowInt(n: int)
    ensures ParseInt(ShowInt(n)) == n
  {
    var m: nat := if n < 0 then -n else n;
    var digits := ShowNat(m);
    DigitsOfShowNat(m);
    LeadingDigitsOfDigits(digits);
    assert !IsNumericSpace(digits[0]) && digits[0] != '-' && digits[0] != '+' by {
      assert IsDigit(digits[0]);
    }
    if n < 0 {
      var text := "-" + digits;
      assert text[0] == '-';
      assert SkipSpace(text) == text;
      assert text[1..] == digits;
    } else {
      assert SkipSpace(digits) == digits;
    }
  }
}

=== FILE: wrappers.dfy ===
/** Failure-compatible Option and Result types shared by the whole model. */
module Wrappers {

  /** An optional value; `None` plays the role of PHP's `null` / an unset key. */
  datatype Option<+T> = None | Some(value: T) {

    /** The wrapped value, or `default` when there is none. */
    function GetOr(default: T): T {
      match this
      case Some(v) => v
      case None => default
    }
  }

  /** Either a value or an error; usable with `:-`. */
  datatype Result<+T, +E> = Ok(value: T) | Fail(error: E) {

    predicate IsFailure() {
      Fail?
    }

    function PropagateFailure<U>(): Result<U, E>
      requires Fail?
    {
      Fail(error)
    }

    function Extract(): T
      requires Ok?
    {
      value
    }
  }
}
